=== FILE: README.md ===
# Implied volatility calculator: a Dafny model

This project models the core of an implied-volatility calculator written in
Python. For each option trade the calculator builds the objective
`f(σ) = price(σ) − V0` from a Black–Scholes (Black-76 for futures) or a
Bachelier pricing formula. It then searches a fixed ladder of volatility
bounds `[1e-7, 1, 2, 5, 10, 100, 1000]` for the first adjacent pair whose
f-values bracket a sign change, and runs a Brent–Dekker iteration on that
pair: inverse quadratic interpolation or the secant method, overridden by
bisection under a five-clause test. Around this sit the CSV plumbing
(header/body split, rows keyed by the header, a row limit), the factory that
picks the model class from a record's tag, the ordered solve loop and the
count of NaN results.

Modules, one per source component:

- `Outcomes` (`outcomes.dfy`): Python's exceptions as `Outcome.Raise(Fault)`, NaN as the `Num.NaN` variant, and small real helpers.
- `Brent` (`brent_step.dfy`): the step and the loop shared by all three root finders. The two forms of clause (i) of the bisection test are the parameter `Rule = Strict | NonStrict`. The zero-residual exit is the parameter `zeroExit`. The post-step swap is the parameter `Swap = EntryValues | KeptValues`: `EntryValues` is the source's test on the f-values from before the step, `KeptValues` the test on the kept pair. Each driver is modelled as written, with `EntryValues`, and again as a corrected driver with `KeptValues` (see Findings).
- `LadderSearch` (`ladder_search.dfy`): `bd_var_bounds`.
- `FixedBracket` (`brent_dekker.dfy`): `scripts/brent_dekker.py`.
- `DraftBrent` (`draft_brent.dfy`): the draft in `notes/brent_decker.py`.
- `Pricing` (`pricing.dfy`): the eight price formulas. The library functions (`norm.cdf`, `norm.pdf`, `exp`, `log`, `sqrt`) are an uninterpreted `Kernel`.
- `TradeClasses` (`trade_classes.dfy`): the trade record, its constructor, the implied-volatility dispatch and `format_solution`.
- `DataManip` (`data_manip.dfy`): `convert_to_array_of_dict` and `dictionaryFormatter`.
- `Runner` (`runner_methods.dfy`): the pure parts of `runner_methods.py`.

The objective `f` is a total `real -> real` parameter. Python's `float()` and
`int()` are parameters returning `Option`, so a text that does not parse is
`None`. A Python exception becomes `Raise` with the exception's class:
`ZeroDivisionError` from the secant and the interpolation, `IndexError` from a
missing list element, `UnboundLocalError` from a one-bound ladder,
`KeyError` from a missing record field, `ValueError` from a bad tag or a bad
number, and `TypeError` from `isnan` on text.

Every implied-volatility method in `scripts/trade_classes.py` passes the same
seven-bound ladder `[1e-7, 1, 2, 5, 10, 100, 1000]` to the search, and so does
the model.

## Model

| member | source | states |
|---|---|---|
| Brent.Bisect | scripts/bd_var_bounds.py:107-108 | the bisection point is equidistant from both ends of the bracket |
| Brent.Secant | scripts/bd_var_bounds.py:86-87 | raises ZeroDivisionError exactly when f(a) = f(b); otherwise s lies on the line through (a, f(a)) and (b, f(b)) where it crosses zero |
| Brent.InverseQuadratic | scripts/bd_var_bounds.py:79-83 | raises ZeroDivisionError exactly when two of f(a), f(b), f(c) coincide, and with any other fault never |
| Brent.LagrangeAtZero | scripts/bd_var_bounds.py:79-83 | the source's sum of three quotients a·f_b·f_c/((f_a−f_b)(f_a−f_c)) + … is the Lagrange quadratic in y through the three points, evaluated at y = 0, which is the value InverseQuadratic returns |
| Brent.InverseQuadraticInterpolates | scripts/bd_var_bounds.py:79-83 | the interpolating quadratic passes through (f(a), a), (f(b), b) and (f(c), c) |
| Brent.HelperExamples | unit_tests/test_bd_var_bounds.py:8-21 | secant(1, 2, 3, 4) = −2, the secant with equal f-values and the interpolation with f(a) = f(b) raise ZeroDivisionError, and bisection gives 0 on (−1, 1) and 7.5 on (5, 10) |
| Brent.OutsideKeptRange | scripts/bd_var_bounds.py:97 | a kept point lies in the bracket, strictly inside it under the strict test; the strict test rejects every point when a ≥ b and the non-strict one when a > b |
| Brent.RulesDiffer | scripts/bd_var_bounds.py:97 | the strict (`bd_var_bounds.py`) and non-strict (`brent_dekker.py:91`) clause (i) disagree exactly when a ≤ b and s is b or (3a + b)/4, the ends of the kept range; otherwise the strict test rejecting nothing implies the non-strict one rejects nothing |
| Brent.ForcesBisection | scripts/bd_var_bounds.py:90-104 | the five-clause test forces bisection whenever clause (i) rejects the point, so when a ≥ b (strict) or a > b (non-strict); when it does not force bisection the point lies in the bracket |
| Brent.NextPoint | scripts/bd_var_bounds.py:44-63 | the trial point raises exactly when f(a) = f(b); otherwise it lies between a and b, it is the midpoint when bisection was forced, and bisection is forced when a ≥ b (strict) or a > b (non-strict) |
| Brent.Step | scripts/bd_var_bounds.py:44-76 | raises exactly when f(a) = f(b); otherwise the new c is the old b, the new d is the old c, the new bracket is {a, s} or {s, b} as the sign of f(a)·f(s) decides, both new ends lie within the old bracket, and with the swap on the kept pair \|f(b')\| ≤ \|f(a')\| |
| Brent.StepKeepsSignChange | scripts/bd_var_bounds.py:65-74 | a step from f(a)·f(b) < 0 does not raise and ends with f(a')·f(b') ≤ 0 |
| Brent.StepDividesSafely | scripts/bd_var_bounds.py:49-55 | under f(a)·f(b) ≤ 0 with f(b) ≠ 0 no division in a step is by zero |
| Brent.Start | scripts/bd_var_bounds.py:24-33 | the initial state keeps the pair, has \|f(b)\| ≤ \|f(a)\|, c = a, d = 0 and the bisection flag set |
| Brent.Iterate | scripts/bd_var_bounds.py:36-39 | the loop only raises ZeroDivisionError, takes at most max_iter steps, stops only when a stop condition holds, returns the start state when no condition lets it run, and keeps b within the start bracket |
| Brent.SolvePair | scripts/bd_var_bounds.py:24-41 | from a pair (a, b) the run takes between 0 and max_iter steps, ends on a stop condition, and returns b within [min(a, b), max(a, b)] |
| Brent.SolvePairAtRoot | scripts/bd_var_bounds.py:36 | with the zero-residual exit, an endpoint that is an exact root is returned after 0 steps |
| Brent.SolvePairSymmetric | scripts/bd_var_bounds.py:26-27 | when \|f(a)\| ≠ \|f(b)\| the order in which the pair is given does not change the run |
| Brent.StepKeepsBracket | scripts/bd_var_bounds.py:65-74 | with the swap on the kept pair, a step from a state with f(a)·f(b) ≤ 0, \|f(b)\| ≤ \|f(a)\| and f(a) ≠ f(b) does not raise and ends in such a state again |
| Brent.IterateKeepsBracket | scripts/bd_var_bounds.py:36-39 | with the swap on the kept pair, f(a)·f(b) ≤ 0 and \|f(b)\| ≤ \|f(a)\| hold at every state of the loop through to the result, and with the zero-residual exit the loop never raises |
| Brent.SolvePairKeepsBracket | scripts/bd_var_bounds.py:24-41 | a solve from a pair with f(a)·f(b) ≤ 0 ends in such a state, with b the better end, and never raises when it has the zero-residual exit |
| Brent.IterateCarriesRoot | scripts/bd_var_bounds.py:36-39 | with the zero-residual exit, once f(c) = 0 implies f(b) = 0 this holds at every later state of the loop, because each step moves the old b into c |
| Brent.SolvePairStops | scripts/bd_var_bounds.py:24-41 | under either swap, a solve with the zero-residual exit that does not raise ends out of steps, within the width tolerance, or with f(b) = 0; the f(c) test never stops the loop on its own |
| Brent.SolvePairConverges | scripts/bd_var_bounds.py:24-41 | with the swap on the kept pair, a solve with the zero-residual exit from f(a)·f(b) ≤ 0 never raises, ends with f(a)·f(b) ≤ 0 and \|f(b)\| ≤ \|f(a)\|, and ends out of steps, within the width tolerance, or at an exact root |
| Brent.FinishedNearSignChange | scripts/bd_var_bounds.py:36 | a bracketed run that stopped short of the step cap leaves b an exact root, or within the tolerance of a point of the start pair (its a) where f does not share b's strict sign |
| Brent.StaleSwapStuck | scripts/bd_var_bounds.py:73-74 | with the source's swap, f(x) = x, b = 1/4 and a above it, every further step bisects towards b and b never moves |
| Brent.StaleSwapLosesBracket | scripts/bd_var_bounds.py:73-74 | with the source's swap, f(x) = x on (−1, 0.5) ends with b = 1/4 and f(a)·f(b) > 0, though the first step probed the root 0 |
| Brent.KeptSwapFindsRoot | scripts/bd_var_bounds.py:73-74 | with the swap on the kept pair, the same solve returns b = 0 after one step |
| Brent.StaleSwapRaises | scripts/brent_dekker.py:67-68 | with the source's swap and the non-strict test, the ramp f (x up to 0, 2x on [0, 1/4], 1/2 above) on (−1, 0.5) divides by zero at the third step although f(−1) < 0 < f(0.5); with the swap on the kept pair the same solve returns b = 0 after one step |
| Brent.StepLocal | scripts/bd_var_bounds.py:44-76 | a step only evaluates f inside the current bracket: two functions that agree there give the same step |
| Brent.IterateLocal | scripts/bd_var_bounds.py:36-39 | the loop only evaluates f inside the start bracket |
| Brent.SolvePairLocal | scripts/bd_var_bounds.py:24-41 | a run only evaluates f between the two given points |
| LadderSearch.FirstBracket | scripts/bd_var_bounds.py:16-22 | finds the first adjacent pair with f(lo)·f(hi) ≤ 0, with no earlier pair qualifying; none exactly when no pair qualifies |
| LadderSearch.LadderRoot | scripts/bd_var_bounds.py:11-41 | under either swap: IndexError exactly on an empty ladder; UnboundLocalError on a one-bound ladder with f(bounds[0]) ≤ 0; NaN exactly when f(bounds[0]) > 0 or no pair brackets; ZeroDivisionError only on the search branch and no other exception; a returned estimate lies within the first bracketing pair |
| LadderSearch.BdVarBounds | scripts/bd_var_bounds.py:11-41 | IndexError exactly on an empty ladder; UnboundLocalError on a one-bound ladder with f(bounds[0]) ≤ 0; NaN exactly when f(bounds[0]) > 0 or no pair brackets; besides these only ZeroDivisionError, and only once a bracketing pair was found; a returned estimate lies within the first bracketing pair |
| LadderSearch.BdVarBoundsStops | scripts/bd_var_bounds.py:36-41 | on the search branch the result is the b of the strict run on the first bracketing pair, ZeroDivisionError exactly when that run raises, and a run that returns ended out of steps, within the width tolerance, or at an exact root |
| LadderSearch.BdVarBoundsCorrected | scripts/bd_var_bounds.py:11-41 | with the swap on the kept pair the search raises exactly on an empty ladder or a one-bound ladder with f(bounds[0]) ≤ 0; NaN exactly when f(bounds[0]) > 0 or no pair brackets; a returned estimate lies within the first bracketing pair |
| LadderSearch.BdVarBoundsCorrectedConverges | scripts/bd_var_bounds.py:24-41 | the corrected search returns the b of a run on the first bracketing pair that does not raise, ends with f(a)·f(b) ≤ 0 and \|f(b)\| ≤ \|f(a)\| on a stop condition, and short of the step cap leaves b an exact root or within the tolerance of a point of the pair where f does not share its strict sign |
| LadderSearch.ExactRootEndpoint | scripts/bd_var_bounds.py:26-41 | when an end of the chosen pair is an exact root, that end is the result |
| LadderSearch.LadderExamples | unit_tests/test_bd_var_bounds.py:29-40 | for x² − 20 the ladders [2, 3] and [−2, 0] give NaN, and on [3, 4, 5] the search picks the pair (4, 5) |
| LadderSearch.FirstBracketLocal | scripts/bd_var_bounds.py:16-22 | the pair search only evaluates f at the ladder's bounds |
| LadderSearch.BdVarBoundsLocal | scripts/bd_var_bounds.py:11-41 | on a sorted ladder the search only evaluates f between the lowest and the highest bound |
| FixedBracket.FixedRoot | scripts/brent_dekker.py:6-35 | under either swap: NaN (with 0 steps when asked) exactly when f(a)·f(b) > 0; the step count is returned exactly when asked and is at most max_iter; a returned estimate lies between a and b; only ZeroDivisionError is raised, and only from f(a)·f(b) ≤ 0 |
| FixedBracket.BrentDekker | scripts/brent_dekker.py:6-35 | NaN (with 0 steps when asked) exactly when f(a)·f(b) > 0; the step count is returned exactly when asked and is at most max_iter; a returned estimate lies between a and b; the only exception is ZeroDivisionError, and only from a start with f(a)·f(b) ≤ 0 |
| FixedBracket.BrentDekkerStops | scripts/brent_dekker.py:17-35 | from f(a)·f(b) ≤ 0 the answer is the b (and step count) of the non-strict run, raising exactly when that run does, and a run that returns ended out of steps, within the width tolerance, or at an exact root |
| FixedBracket.BrentDekkerRaisesOnRamp | scripts/brent_dekker.py:67-68 | brent_dekker divides by zero on the ramp over (−1, 0.5), although f changes sign there |
| FixedBracket.BrentDekkerCorrected | scripts/brent_dekker.py:6-35 | with the swap on the kept pair: never raises; NaN exactly when f(a)·f(b) > 0; the step count is returned exactly when asked and is at most max_iter; an estimate lies between a and b, and one returned short of max_iter steps is an exact root or within the tolerance of a point between a and b where f does not share its strict sign |
| FixedBracket.EndpointRootTakesNoSteps | scripts/brent_dekker.py:17-35 | an endpoint that is an exact root comes back after 0 steps |
| FixedBracket.BracketOrderIrrelevant | scripts/brent_dekker.py:17-18 | swapping a and b does not change the answer unless \|f(a)\| = \|f(b)\| |
| FixedBracket.NoSignChangeGivesNaN | unit_tests/test_brent_dekker.py:33-34 | x² − 20 on (−6, −5) gives NaN with 0 steps |
| DraftBrent.DraftRun | notes/brent_decker.py:3-53 | from a start with f(a)·f(b) ≤ 0 only ZeroDivisionError is raised; a returned run ended on the step cap or the width tolerance, within max_iter steps, with a and b within the start pair |
| DraftBrent.DraftRunCorrected | notes/brent_decker.py:3-53 | with the swap on the kept pair, as DraftRun, and the run ends with f(a)·f(b) ≤ 0 and \|f(b)\| ≤ \|f(a)\|; short of the step cap b is an exact root or within the tolerance of a point of the start pair where f does not share its strict sign |
| DraftBrent.DraftBrentDekker | notes/brent_decker.py:1-55 | always returns (b, steps) with b between a and b and 0 ≤ steps ≤ max_iter; only ZeroDivisionError is raised |
| DraftBrent.DraftStepsPastExactRoot | notes/brent_decker.py:17 | without the zero-residual exit, f(x) = x on (−1, 0) takes one step, where the exit would take none |
| DraftBrent.DraftBrentDekkerStops | notes/brent_decker.py:17-55 | the result is (b, steps) of the draft's run, raising exactly when that run does, and a run that returns ended on the step cap or the width tolerance |
| DraftBrent.DraftRaisesOnRamp | notes/brent_decker.py:50-51 | the draft divides by zero on the ramp over (−1, 0.5), although f changes sign there |
| DraftBrent.DraftZeroFunctionRaises | notes/brent_decker.py:5-29 | f ≡ 0 passes the bracket assertion and then divides by zero in the secant |
| Pricing.BlackScholesStockFactors | scripts/trade_classes.py:33-37 | d1·σ√t = log(S/K) + (r + σ²/2)t, and d2·σ√t = log(S/K) + (r − σ²/2)t when √t·√t = t |
| Pricing.BlackScholesFutureFactors | scripts/trade_classes.py:75-79 | d1·σ√t = log(F/K) + (σ²/2)t, and d2·σ√t = log(F/K) − (σ²/2)t when √t·√t = t |
| Pricing.BlackScholesStockCallBounds | scripts/trade_classes.py:45-47 | for a cdf with values in [0, 1] and S, K, exp(−rt) ≥ 0, −K·exp(−rt) ≤ call ≤ S |
| Pricing.BlackScholesStockPutBounds | scripts/trade_classes.py:57-59 | under the same conditions −S ≤ put ≤ K·exp(−rt) |
| Pricing.BlackScholesFutureCallBounds | scripts/trade_classes.py:86-88 | under the same conditions −K·exp(−rt) ≤ call ≤ F·exp(−rt) |
| Pricing.BlackScholesFuturePutBounds | scripts/trade_classes.py:98-100 | under the same conditions −F·exp(−rt) ≤ put ≤ K·exp(−rt) |
| Pricing.BlackScholesStockParity | scripts/trade_classes.py:45-59 | for a cdf with N(−x) = 1 − N(x), put = call − S + K·exp(−rt) |
| Pricing.BlackScholesFutureParity | scripts/trade_classes.py:86-100 | for a cdf with N(−x) = 1 − N(x), put = call + (K − S)·exp(−rt) |
| Pricing.BachelierStockFactor | scripts/trade_classes.py:125-128 | over a positive K·exp(−rt)·σ√t, d > 0 exactly when S > K·exp(−rt) and d = 0 exactly at the money; d = 0 whenever S = K·exp(−rt) |
| Pricing.BachelierStockCallAtTheMoney | scripts/trade_classes.py:136-139 | at S = K·exp(−rt) the call is K·exp(−rt)·σ√t·n(0) |
| Pricing.BachelierStockCallFloor | scripts/trade_classes.py:136-139 | for a cdf with values in [0, 1], a non-negative pdf and K·exp(−rt)·σ√t ≥ 0, the call is at least min(0, S − K·exp(−rt)) |
| Pricing.BachelierStockPut | scripts/trade_classes.py:149-152 | for every σ, put = call + K·exp(−rt) − S |
| Pricing.BachelierFutureFactor | scripts/trade_classes.py:167-170 | over a positive K·σ√t, d > 0 exactly when F > K and d = 0 exactly when F = K |
| Pricing.BachelierFutureCallFloor | scripts/trade_classes.py:177-179 | for a cdf with values in [0, 1], a non-negative pdf and K·exp(−rt)·σ√t ≥ 0, the call is at least min(0, (F − K)·exp(−rt)) |
| Pricing.BachelierFuturePut | scripts/trade_classes.py:189-192 | for every σ, put = call + (K − S)·exp(−rt) |
| Pricing.DivisorsNonZeroForPositiveVolatility | scripts/trade_classes.py:125-128 | for S, K, t > 0, a positive exp and a sqrt positive on positives, no formula divides by zero at any σ > 0 |
| Pricing.BachelierFactorsAgreeIffNoDiscount | scripts/trade_classes.py:167-179 | the stock factor the futures formulas use equals the unused futures factor exactly when exp(−rt) = 1 |
| TradeClasses.Field | scripts/trade_classes.py:11 | reading a field raises KeyError exactly when it is absent |
| TradeClasses.FloatField | scripts/trade_classes.py:12-16 | a numeric field is KeyError when absent, ValueError when it does not parse, and the parsed number otherwise |
| TradeClasses.NewTrade | scripts/trade_classes.py:10-20 | construction succeeds exactly when the record is complete; then every field is the record's, t = days/365 and imp_vol is NaN |
| TradeClasses.LadderIncreasing | scripts/trade_classes.py:52 | the ladder has seven strictly increasing bounds from 1e-7 to 1000 |
| TradeClasses.SolveFor | scripts/trade_classes.py:49-52 | the only exception is the iteration's ZeroDivisionError, and only when the price at 1e-7 is at most V0 and some adjacent ladder pair brackets a sign change; a solved volatility lies in [1e-7, 1000]; NaN exactly when the price at 1e-7 is above V0 or no adjacent pair of the ladder brackets a sign change of price(σ) − V0 |
| TradeClasses.SolveForCorrected | scripts/trade_classes.py:49-52 | with the corrected search the solve never raises; a solved volatility lies in [1e-7, 1000]; NaN exactly when the price at 1e-7 is above V0 or no adjacent pair of the ladder brackets a sign change of price(σ) − V0 |
| TradeClasses.SolveForLocal | scripts/trade_classes.py:52 | the solver only evaluates the price for σ in [1e-7, 1000], so never at σ ≤ 0 |
| TradeClasses.FormulaParity | scripts/trade_classes.py:40-208 | for a cdf with N(−x) = 1 − N(x), each class's put formula is its call formula plus K·exp(−rt) − S on a stock and (K − S)·exp(−rt) on a future, under both models |
| TradeClasses.ImpliedVolatilityFor | scripts/trade_classes.py:40-108 | an option tag other than Call or Put gives NaN without solving; a result lies in [1e-7, 1000] |
| TradeClasses.CalcImpliedVolatility | scripts/trade_classes.py:110-116 | only imp_vol changes; an unknown underlying or option tag gives NaN; a solved volatility lies in [1e-7, 1000] |
| TradeClasses.DispatchIsTableLookup | scripts/trade_classes.py:202-208 | the nested tag tests equal a lookup: a recognised (underlying, option) pair is solved with its formula, any other pair gives NaN |
| TradeClasses.ProbedVolatilitiesAreWellDefined | scripts/trade_classes.py:33-52 | every volatility the ladder search can probe has nonzero divisors in every formula of a valid trade |
| TradeClasses.FormatSolution | scripts/trade_classes.py:22-23 | the output row has nine fields with imp_vol at index 7 |
| DataManip.Zip | scripts/data_manip.py:20-21 | the keys are the first len(row) names, and each name maps to the cell of its last occurrence |
| DataManip.DictionaryFormatter | scripts/data_manip.py:20-21 | IndexError exactly when the row is longer than the header; otherwise the names of the row's columns map to its cells, a later duplicate name winning |
| DataManip.FormatRows | scripts/data_manip.py:7-15 | all rows format, in order, one record per row, or IndexError exactly when some row is longer than the header |
| DataManip.ConvertToArrayOfDict | scripts/data_manip.py:5-17 | an empty file gives no records; otherwise the header row is never emitted and the first n data rows are formatted in order, n being the break point when it is between 0 and the row count and all rows otherwise |
| Runner.NewCalculator | scripts/runner_methods.py:10-20 | IndexError exactly with fewer than three arguments; with three, lines_to_run is −1; with four, the parsed fourth argument or ValueError; otherwise ValueError |
| Runner.FromRawRows | scripts/runner_methods.py:58-63 | the header followed by the body gives back the file's rows; an empty file raises IndexError |
| Runner.DataAsDictionary | scripts/runner_methods.py:78-86 | the first n body rows are formatted in order, with n the break point when it is between 0 and the body length and all rows otherwise |
| Runner.CreateTradeObject | scripts/runner_methods.py:95-102 | a missing tag is KeyError and an unknown tag ValueError; 'Bachelier' and 'BlackScholes' build that class, succeeding exactly when the record is complete |
| Runner.EachInOrder | scripts/runner_methods.py:106-114 | one result per item in order, or the exception of the first item that fails |
| Runner.CreateTrades | scripts/runner_methods.py:67-70 | one trade per record in order, or the exception of the first record that fails |
| Runner.SolvedRow | scripts/runner_methods.py:111-112 | a trade's row is its format_solution after solving, or the solver's ZeroDivisionError |
| Runner.PolymorphicSolve | scripts/runner_methods.py:106-114 | one output row per trade in input order, each that trade solved and formatted; raises exactly when some trade's solve raises |
| Runner.ColumnsAligned | scripts/runner_methods.py:72-73 | the nine header names label the nine fields of format_solution, column by column |
| Runner.SolveRecord | scripts/runner_methods.py:66-74 | a record's output row has nine fields with a number at index 7 |
| Runner.SolveRecords | scripts/runner_methods.py:66-71 | every record becomes its row, in order, exactly when every record passes construction and solve |
| Runner.CalculateImpliedVolatilities | scripts/runner_methods.py:65-74 | the output has the fixed header and one solved row per record read; it fails exactly when reading fails or some record does not make it through |
| Runner.CountFault | scripts/runner_methods.py:46 | for a row whose field 7 is not a number, IndexError exactly when the row has no eighth field and TypeError exactly when that field is text |
| Runner.NanCount | scripts/runner_methods.py:44-48 | the count is the number of rows whose field 7 is NaN, or the exception of the first row where isnan is undefined |
| Runner.NaNRowsOfSolutions | scripts/runner_methods.py:44-48 | on solved output the NaN rows are the trades without an implied volatility |
| Runner.RunApplication | scripts/runner_methods.py:10-49 | argument errors come before the file is read; a run yields the fixed header, as many rows as lines_to_run allows, and the NaN count of those rows, and the count itself never fails on solved output |

## Left out

- File I/O is not modelled: opening and writing the CSV files, the `csv` reader and writer, `app.py` and `scripts/csv_reader.py`. The input file's rows are a parameter of `Runner.RunApplication`, and the writer's rows are its result.
- Timing and progress prints are not modelled (`time.time()`, the `print` calls, and the `entry_id` counter of `polymorphic_solve`, which only drives a print).
- Module-level demo code is not modelled: `scripts/bd_var_bounds.py:111-129`, `scripts/brent_dekker.py:105-122` and `notes/brent_decker.py:58-70`.
- Python's `float()` and `int()` are parameters. Text that does not parse is `None`, which the model turns into ValueError.
- Floating point is not modelled: reals are exact, so IEEE rounding, overflow and `inf` are absent. The numeric convergence values the tests check with `isclose`, and the exact interpolation value `1.8863162489375445`, are not stated.
- The library functions `norm.cdf`, `norm.pdf`, `exp`, `log` and `sqrt` are uninterpreted. The put–call parities of the Black–Scholes formulas assume only N(−x) = 1 − N(x).
- Pricing.Quot: a division in a price formula whose divisor is zero yields 0, where Python raises ZeroDivisionError or a domain error; `Pricing.DivisorsNonZeroForPositiveVolatility` shows this never happens for a valid trade at the volatilities the ladder search can probe. A trade with S, K or t not positive (where `log` or `sqrt` would raise) is not modelled as raising.
- TradeClasses.SolveFor: errors raised by the price function itself (see Pricing.Quot) are not modelled; the solve's only exception is the iteration's ZeroDivisionError.
- Brent.Iterate: its own contract does not carry the bracket, because with the source's swap the bracket can be lost (see Findings); `Brent.IterateKeepsBracket` states it for the swap on the kept pair, which the corrected drivers `LadderSearch.BdVarBoundsCorrected`, `FixedBracket.BrentDekkerCorrected`, `DraftBrent.DraftRunCorrected` and `TradeClasses.SolveForCorrected` use.
- The Bachelier futures formulas call the stock factor, as the source does; the futures factor is defined and not used (`Pricing.BachelierFactorsAgreeIffNoDiscount` states when the two agree).
- `notes/black_scholes.py`, `scripts/check_ab_tol.py`, `scripts/data_classes.py`, and the unused helpers in `scripts/data_methods.py` and `notes/data_methods.py` are not part of this model. The last two are copies of functions modelled once here. The `dictionaryFormatter` of `scripts/runner_methods.py:91-92` is the same function as in `scripts/data_manip.py`, so `DataManip.DictionaryFormatter` models both.
- The draft's `assert f_a * f_b <= 0` (`notes/brent_decker.py:5`) is a precondition of `DraftBrent.DraftRun`, `DraftBrent.DraftRunCorrected` and `DraftBrent.DraftBrentDekker`, not an AssertionError outcome.

## Findings

| source | as written | input that shows it | evidently intended | confidence | as-written member | corrected member |
|---|---|---|---|---|---|---|
| scripts/bd_var_bounds.py:73-74 (also scripts/brent_dekker.py:67-68 and notes/brent_decker.py:50-51) | after keeping {a, s} or {s, b}, the swap that keeps b the better end compares f_a and f_b, the values from before the step | f(x) = x on the pair (−1, 0.5) with tolerance 1e-8 and 50 steps: the first step probes the root 0 and keeps a = 0, b = 0.5 unswapped; the second keeps (0.5, 0.25), where f is positive at both ends, and the run ends with b = 0.25 | compare \|f\| at the kept pair, so that f(a)·f(b) ≤ 0 and \|f(b)\| ≤ \|f(a)\| hold through the loop and the root 0 comes back after one step | not executed | Brent.StaleSwapLosesBracket | Brent.IterateKeepsBracket |
| scripts/brent_dekker.py:67-68 (also scripts/bd_var_bounds.py:73-74 and notes/brent_decker.py:50-51) | the same swap on the f-values from before the step can leave f(a) = f(b) on the kept pair | the ramp f (x up to 0, 2x on [0, 1/4], 1/2 above) on (−1, 0.5) with the non-strict test: step 1 keeps (0, 0.5); step 2 bisects to 1/4 and the swap, judged on f(0) = 0 against f(0.5), leaves a = 0.5, b = 1/4 with f = 1/2 at both; step 3 divides by zero | compare \|f\| at the kept pair, so that a solve from a sign change never raises and ends bracketed on a stop condition | not executed | Brent.StaleSwapRaises | Brent.SolvePairConverges |

=== FILE: brent_dekker.dfy ===
/** The fixed-bracket root finder (scripts/brent_dekker.py): NaN on a start
    without a sign change, then the non-strict Brent–Dekker iteration with the
    zero-residual exit, returning the estimate alone or with the step count. */
module FixedBracket {
  import opened Outcomes
  import opened Brent

  /** What the source returns: `b` alone, or `(b, steps)` when asked for the
      number of steps. */
  datatype Answer = Scalar(root: Num) | WithSteps(root: Num, steps: int)

  /** brent_dekker with the swap test as a parameter. */
  function FixedRoot(f: real -> real, a: real, b: real, maxIter: int, tol: real, returnSteps: bool, swap: Swap): (r: Outcome<Answer>)
    ensures r.Raise? ==> r.fault == ZeroDivisionError && f(a) * f(b) <= 0.0
    ensures r.Ok? ==> (r.value.WithSteps? <==> returnSteps)
    ensures f(a) * f(b) > 0.0 ==> r == Ok(if returnSteps then WithSteps(NaN, 0) else Scalar(NaN))
    ensures r.Ok? && r.value.root == NaN ==> f(a) * f(b) > 0.0
    ensures r.Ok? && r.value.root.Real? ==> Between(r.value.root.value, a, b)
    ensures r.Ok? && r.value.WithSteps? ==>
              0 <= r.value.steps && r.value.steps <= if maxIter < 0 then 0 else maxIter
  {
    if f(a) * f(b) > 0.0 then
      Ok(if returnSteps then WithSteps(NaN, 0) else Scalar(NaN))
    else
      var run :- SolvePair(f, a, b, maxIter, tol, NonStrict, true, swap);
      Ok(if returnSteps then WithSteps(Real(run.state.b), run.steps) else Scalar(Real(run.state.b)))
  }

  /** brent_dekker as written: the swap compares the f-values from before
      the step, so a sign change can still end in a division by zero. */
  function BrentDekker(f: real -> real, a: real, b: real, maxIter: int, tol: real, returnSteps: bool): (r: Outcome<Answer>)
    ensures r.Raise? ==> r.fault == ZeroDivisionError && f(a) * f(b) <= 0.0
    ensures r.Ok? ==> (r.value.WithSteps? <==> returnSteps)
    ensures f(a) * f(b) > 0.0 ==> r == Ok(if returnSteps then WithSteps(NaN, 0) else Scalar(NaN))
    ensures r.Ok? && r.value.root == NaN ==> f(a) * f(b) > 0.0
    ensures r.Ok? && r.value.root.Real? ==> Between(r.value.root.value, a, b)
    ensures r.Ok? && r.value.WithSteps? ==>
              0 <= r.value.steps && r.value.steps <= if maxIter < 0 then 0 else maxIter
  {
    FixedRoot(f, a, b, maxIter, tol, returnSteps, EntryValues)
  }

  /** Given a sign change, brent_dekker returns the b (and step count) of a
      run that ended on the step cap, the width tolerance or an exact root,
      or raises exactly when that run divides by zero. */
  lemma BrentDekkerStops(f: real -> real, a: real, b: real, maxIter: int, tol: real, returnSteps: bool)
    requires f(a) * f(b) <= 0.0
    ensures var r := BrentDekker(f, a, b, maxIter, tol, returnSteps);
            var run := SolvePair(f, a, b, maxIter, tol, NonStrict, true, EntryValues);
            && (r.Raise? <==> run.Raise?)
            && (run.Ok? ==> && r.value.root == Real(run.value.state.b)
                            && (r.value.WithSteps? ==> r.value.steps == run.value.steps)
                            && Finished(f, run.value, maxIter, tol))
  {
    SolvePairStops(f, a, b, maxIter, tol, NonStrict, EntryValues);
  }

  /** The ramp input on which brent_dekker divides by zero although f(−1)
      and f(0.5) have opposite signs. */
  lemma BrentDekkerRaisesOnRamp()
    ensures BrentDekker(Ramp, -1.0, 0.5, 50, 0.00000001, true) == Raise(ZeroDivisionError)
  {
    StaleSwapRaises();
  }

  /** brent_dekker with the swap judged on the kept pair: it never raises,
      and a root estimate returned short of the step cap is an exact root or
      within tol of a point of the bracket where f changes sign. */
  function BrentDekkerCorrected(f: real -> real, a: real, b: real, maxIter: int, tol: real, returnSteps: bool): (r: Outcome<Answer>)
    ensures r.Ok?
    ensures r.value.WithSteps? <==> returnSteps
    ensures r.value.root == NaN <==> f(a) * f(b) > 0.0
    ensures r.value.root.Real? ==> Between(r.value.root.value, a, b)
    ensures r.value.WithSteps? ==> 0 <= r.value.steps && r.value.steps <= if maxIter < 0 then 0 else maxIter
    ensures r.value.WithSteps? && r.value.root.Real? && r.value.steps < maxIter ==>
              NearSignChange(f, r.value.root.value, tol, a, b)
  {
    if f(a) * f(b) > 0.0 then
      FixedRoot(f, a, b, maxIter, tol, returnSteps, KeptValues)
    else
      SolvePairConverges(f, a, b, maxIter, tol, NonStrict);
      var run := SolvePair(f, a, b, maxIter, tol, NonStrict, true, KeptValues).value;
      if run.steps < maxIter then
        FinishedNearSignChange(f, run, maxIter, tol, a, b);
        FixedRoot(f, a, b, maxIter, tol, returnSteps, KeptValues)
      else
        FixedRoot(f, a, b, maxIter, tol, returnSteps, KeptValues)
  }

  /** An endpoint that is an exact root comes back unchanged after 0 steps. */
  lemma EndpointRootTakesNoSteps(f: real -> real, a: real, b: real, maxIter: int, tol: real)
    requires f(a) == 0.0 || f(b) == 0.0
    ensures var r := BrentDekker(f, a, b, maxIter, tol, true);
            && r.Ok? && r.value.steps == 0 && r.value.root.Real?
            && f(r.value.root.value) == 0.0
            && (r.value.root.value == a || r.value.root.value == b)
  {
    assert f(a) * f(b) == 0.0;
    SolvePairAtRoot(f, a, b, maxIter, tol, NonStrict, EntryValues);
  }

  /** Giving the bracket in the other order changes nothing unless |f(a)|
      and |f(b)| tie. */
  lemma BracketOrderIrrelevant(f: real -> real, a: real, b: real, maxIter: int, tol: real, returnSteps: bool)
    requires Abs(f(a)) != Abs(f(b))
    ensures BrentDekker(f, a, b, maxIter, tol, returnSteps) == BrentDekker(f, b, a, maxIter, tol, returnSteps)
  {
    assert f(a) * f(b) == f(b) * f(a);
    SolvePairSymmetric(f, a, b, maxIter, tol, NonStrict, true, EntryValues);
  }

  /** The closed-form test case f(x) = x² − 20 on (−6, −5): no sign change,
      so NaN with 0 steps. */
  lemma NoSignChangeGivesNaN()
    ensures BrentDekker(x => x * x - 20.0, -6.0, -5.0, 50, 0.00000001, true) == Ok(WithSteps(NaN, 0))
  {
  }
}

=== FILE: brent_step.dfy ===
/** The Brent–Dekker iteration shared by the three root finders: the three
    candidate formulas, the bisection test, one step of the hybrid method and
    the step-bounded loop around it.

    scripts/bd_var_bounds.py and scripts/brent_dekker.py hold textually the
    same step; notes/brent_decker.py inlines it. They differ only in clause (i)
    of the bisection test, which is the `Rule` parameter here. */
module Brent {
  import opened Outcomes

  /** Clause (i) of the bisection test: the chained comparison
      `not ((3a+b)/4 < s < b)` of bd_var_bounds.py, or the pair of
      comparisons `s < (3a+b)/4 or s > b` of brent_dekker.py and the draft. */
  datatype Rule = Strict | NonStrict

  /** The loop state: the bracket (a, b) with b the current estimate, the
      previous b in c, the b before that in d, and whether the last step
      bisected (mflag). */
  datatype State = State(a: real, b: real, c: real, d: real, mflag: bool)

  /** Which f-values decide the swap that keeps b the best guess after a
      step. The source compares the values a and b had before the step
      (EntryValues); its comment asks for b to be the better point of the
      pair it keeps, which is the comparison of that pair's own values
      (KeptValues). The drivers as written use EntryValues, the corrected
      drivers KeptValues; StaleSwapLosesBracket and StaleSwapRaises show what
      EntryValues does. */
  datatype Swap = EntryValues | KeptValues

  /** The next trial point and whether bisection produced it. */
  datatype Probe = Probe(s: real, bisected: bool)

  /** The result of the loop: the final state and the number of steps taken. */
  datatype Run = Run(state: State, steps: int)

  // ---------------------------------------------------------------------------
  // Candidate formulas
  // ---------------------------------------------------------------------------

  /** Bisection: the midpoint of a and b. */
  function Bisect(a: real, b: real): (m: real)
    ensures m - a == b - m
  {
    (a + b) / 2.0
  }

  /** The secant step through (a, f_a) and (b, f_b). Python raises
      ZeroDivisionError when f_a == f_b. */
  function Secant(a: real, b: real, fa: real, fb: real): (r: Outcome<real>)
    ensures r.Raise? <==> fa == fb
    ensures r.Raise? ==> r.fault == ZeroDivisionError
    // the line through the two points vanishes at the result
    ensures r.Ok? ==> (r.value - b) * (fb - fa) == fb * (a - b)
  {
    if fb - fa == 0.0 then Raise(ZeroDivisionError)
    else
      var q := (fb * (b - a)) / (fb - fa);
      assert q * (fb - fa) == fb * (b - a);
      Ok(b - q)
  }

  /** The Lagrange quadratic through (f_a, a), (f_b, b), (f_c, c), read as x
      in terms of the function value y. Inverse quadratic interpolation
      evaluates it at y = 0. */
  function InverseQuadraticAt(a: real, b: real, c: real, fa: real, fb: real, fc: real, y: real): real
    requires fa != fb && fa != fc && fb != fc
  {
    ProductZeroIff(fa - fb, fa - fc);
    ProductZeroIff(fb - fa, fb - fc);
    ProductZeroIff(fc - fa, fc - fb);
    a * ((y - fb) * (y - fc)) / ((fa - fb) * (fa - fc))
    + b * ((y - fa) * (y - fc)) / ((fb - fa) * (fb - fc))
    + c * ((y - fb) * (y - fa)) / ((fc - fa) * (fc - fb))
  }

  lemma ProductZeroIff(x: real, y: real)
    ensures x * y == 0.0 <==> (x == 0.0 || y == 0.0)
  {
  }

  /** At y = 0 the Lagrange form is the source's sum of three quotients. */
  lemma LagrangeAtZero(a: real, b: real, c: real, fa: real, fb: real, fc: real)
    requires fa != fb && fa != fc && fb != fc
    requires (fa - fb) * (fa - fc) != 0.0 && (fb - fa) * (fb - fc) != 0.0 && (fc - fa) * (fc - fb) != 0.0
    ensures InverseQuadraticAt(a, b, c, fa, fb, fc, 0.0)
            == (a * fb * fc) / ((fa - fb) * (fa - fc))
               + (b * fa * fc) / ((fb - fa) * (fb - fc))
               + (c * fb * fa) / ((fc - fa) * (fc - fb))
  {
    assert (0.0 - fb) * (0.0 - fc) == fb * fc;
    assert (0.0 - fa) * (0.0 - fc) == fa * fc;
    assert (0.0 - fb) * (0.0 - fa) == fb * fa;
    assert a * (fb * fc) == a * fb * fc;
    assert b * (fa * fc) == b * fa * fc;
    assert c * (fb * fa) == c * fb * fa;
  }

  /** Inverse quadratic interpolation, evaluating its three Lagrange terms
      in the source's order. Each term divides by a product of two
      differences of function values and raises ZeroDivisionError when that
      product is zero. */
  function InverseQuadratic(a: real, b: real, c: real, fa: real, fb: real, fc: real): (r: Outcome<real>)
    ensures r.Raise? <==> (fa == fb || fa == fc || fb == fc)
    ensures r.Raise? ==> r.fault == ZeroDivisionError
  {
    var den0 := (fa - fb) * (fa - fc);
    var den1 := (fb - fa) * (fb - fc);
    ProductZeroIff(fa - fb, fa - fc);
    if den0 == 0.0 then Raise(ZeroDivisionError)
    else
      ProductZeroIff(fb - fa, fb - fc);
      if den1 == 0.0 then Raise(ZeroDivisionError)
      else
        // den0 and den1 nonzero leave all three values distinct, so den2 is
        // too; LagrangeAtZero equates the source's sum of three quotients
        // with the Lagrange form
        Ok(InverseQuadraticAt(a, b, c, fa, fb, fc, 0.0))
  }

  /** The quadratic behind inverse quadratic interpolation passes through the
      three points it is built from. */
  lemma InverseQuadraticInterpolates(a: real, b: real, c: real, fa: real, fb: real, fc: real)
    requires fa != fb && fa != fc && fb != fc
    ensures InverseQuadraticAt(a, b, c, fa, fb, fc, fa) == a
    ensures InverseQuadraticAt(a, b, c, fa, fb, fc, fb) == b
    ensures InverseQuadraticAt(a, b, c, fa, fb, fc, fc) == c
  {
    var d0 := (fa - fb) * (fa - fc);
    var d1 := (fb - fa) * (fb - fc);
    var d2 := (fc - fa) * (fc - fb);
    ProductZeroIff(fa - fb, fa - fc);
    ProductZeroIff(fb - fa, fb - fc);
    ProductZeroIff(fc - fa, fc - fb);
    assert (fa - fb) * (fa - fc) == d0;
    assert (fb - fa) * (fb - fc) == d1;
    assert (fc - fb) * (fc - fa) == d2;
    assert a * d0 / d0 == a;
    assert b * d1 / d1 == b;
    assert c * d2 / d2 == c;
  }

  // ---------------------------------------------------------------------------
  // The bisection test
  // ---------------------------------------------------------------------------

  /** Clause (i) alone: the candidate s does not lie where the rule keeps it. */
  function OutsideKeptRange(rule: Rule, a: real, b: real, s: real): (outside: bool)
    ensures !outside ==> a <= s <= b
    ensures rule.Strict? && !outside ==> a < s < b
    ensures rule.Strict? && a >= b ==> outside
    ensures rule.NonStrict? && a > b ==> outside
  {
    match rule
    case Strict => !((3.0 * a + b) / 4.0 < s < b)
    case NonStrict => s < (3.0 * a + b) / 4.0 || s > b
  }

  /** The five-clause test that overrides the interpolated candidate s with
      the midpoint of a and b. */
  function ForcesBisection(rule: Rule, a: real, b: real, c: real, d: real, s: real, mflag: bool, tol: real): (forced: bool)
    ensures !forced ==> a <= s <= b
    ensures rule.Strict? && a >= b ==> forced
    ensures rule.NonStrict? && a > b ==> forced
  {
    || OutsideKeptRange(rule, a, b, s)
    || (mflag && Abs(s - b) >= Abs(b - c) / 2.0)
    || (!mflag && Abs(s - b) >= Abs(c - d) / 2.0)
    || (mflag && Abs(b - c) < tol)
    || (!mflag && Abs(c - d) < tol)
  }

  /** The helper cases of the repository's unit tests. */
  lemma HelperExamples()
    ensures Secant(1.0, 2.0, 3.0, 4.0) == Ok(-2.0)
    ensures Secant(1.0, 2.0, 1.0, 1.0) == Raise(ZeroDivisionError)
    ensures InverseQuadratic(1.0, 2.0, 3.0, -2.0, -2.0, 0.0) == Raise(ZeroDivisionError)
    ensures Bisect(-1.0, 1.0) == 0.0 && Bisect(5.0, 10.0) == 7.5
  {
  }

  /** The two forms of clause (i) differ exactly on the ends of the kept
      range: for a <= b and s == b or s == (3a+b)/4 the chained test forces
      bisection and the non-strict test keeps s (a == b == s included). */
  lemma RulesDiffer()
    ensures forall x: real :: OutsideKeptRange(Strict, x, x, x) && !OutsideKeptRange(NonStrict, x, x, x)
    ensures forall a: real, b: real :: a <= b ==> OutsideKeptRange(Strict, a, b, b) && !OutsideKeptRange(NonStrict, a, b, b)
    ensures forall a: real, b: real, s: real ::
              OutsideKeptRange(Strict, a, b, s) != OutsideKeptRange(NonStrict, a, b, s)
              <==> a <= b && (s == b || s == (3.0 * a + b) / 4.0)
    ensures forall a: real, b: real, s: real ::
              !OutsideKeptRange(Strict, a, b, s) ==> !OutsideKeptRange(NonStrict, a, b, s)
  {
  }

  // ---------------------------------------------------------------------------
  // One step
  // ---------------------------------------------------------------------------

  /** The trial point of one step: inverse quadratic interpolation when
      f(a), f(b) are both distinct from f(c), the secant otherwise, replaced
      by the midpoint when the bisection test fires. */
  function NextPoint(f: real -> real, st: State, tol: real, rule: Rule): (r: Outcome<Probe>)
    ensures r.Raise? <==> f(st.a) == f(st.b)
    ensures r.Raise? ==> r.fault == ZeroDivisionError
    ensures r.Ok? ==> Between(r.value.s, st.a, st.b)
    ensures r.Ok? && r.value.bisected ==> r.value.s == Bisect(st.a, st.b)
    ensures r.Ok? && rule.Strict? && st.a >= st.b ==> r.value.bisected
    ensures r.Ok? && rule.NonStrict? && st.a > st.b ==> r.value.bisected
  {
    var fa, fb, fc := f(st.a), f(st.b), f(st.c);
    var candidate :-
      if fa != fc && fb != fc then InverseQuadratic(st.a, st.b, st.c, fa, fb, fc)
      else Secant(st.a, st.b, fa, fb);
    if ForcesBisection(rule, st.a, st.b, st.c, st.d, candidate, st.mflag, tol) then
      Ok(Probe(Bisect(st.a, st.b), true))
    else
      Ok(Probe(candidate, false))
  }

  /** One step of the hybrid method: probe s, keep the half of the bracket
      where f changes sign relative to f(a), shift the history (c, d) and
      swap the kept pair when |f| is smaller at its first point, judged by
      the values the swap rule names. */
  function Step(f: real -> real, st: State, tol: real, rule: Rule, swap: Swap): (r: Outcome<State>)
    ensures r.Raise? <==> f(st.a) == f(st.b)
    ensures r.Raise? ==> r.fault == ZeroDivisionError
    ensures r.Ok? ==> r.value.c == st.b && r.value.d == st.c
    ensures r.Ok? ==> r.value.mflag == NextPoint(f, st, tol, rule).value.bisected
    ensures r.Ok? ==>
              var s := NextPoint(f, st, tol, rule).value.s;
              if f(st.a) * f(s) < 0.0 then SamePair(r.value.a, r.value.b, st.a, s)
              else SamePair(r.value.a, r.value.b, s, st.b)
    ensures r.Ok? ==> Between(r.value.a, st.a, st.b) && Between(r.value.b, st.a, st.b)
    ensures r.Ok? && swap.KeptValues? ==> Abs(f(r.value.b)) <= Abs(f(r.value.a))
  {
    var p :- NextPoint(f, st, tol, rule);
    var fa, fb, fs := f(st.a), f(st.b), f(p.s);
    var (a1, b1) := if fa * fs < 0.0 then (st.a, p.s) else (p.s, st.b);
    var swapped := match swap
      case EntryValues => Abs(fa) < Abs(fb)
      case KeptValues => Abs(f(a1)) < Abs(f(b1));
    var (a2, b2) := if swapped then (b1, a1) else (a1, b1);
    Ok(State(a2, b2, st.b, st.c, p.bisected))
  }

  lemma NegativeProductDistinct(x: real, y: real)
    requires x * y < 0.0
    ensures x != y
  {
  }

  lemma SignCarries(x: real, y: real, z: real)
    requires x != 0.0 && x * y <= 0.0 && x * z >= 0.0
    ensures z * y <= 0.0
  {
    if x > 0.0 {
      assert y <= 0.0 && z >= 0.0;
    } else {
      assert y >= 0.0 && z <= 0.0;
    }
  }

  /** Keeping {a, s} when f(a)·f(s) < 0 and {s, b} otherwise leaves a pair
      whose f-values do not share a strict sign. */
  lemma KeptPairSign(f: real -> real, x: real, y: real, a: real, b: real, s: real)
    requires f(a) != 0.0 && f(a) * f(b) <= 0.0
    requires if f(a) * f(s) < 0.0 then SamePair(x, y, a, s) else SamePair(x, y, s, b)
    ensures f(x) * f(y) <= 0.0
  {
    if f(a) * f(s) < 0.0 {
      assert f(x) * f(y) == f(a) * f(s);
    } else {
      SignCarries(f(a), f(b), f(s));
      assert f(x) * f(y) == f(s) * f(b);
    }
  }

  /** A step from a strict sign change cannot raise, and the new bracket
      still has f-values of opposite sign (or a zero). */
  lemma StepKeepsSignChange(f: real -> real, st: State, tol: real, rule: Rule, swap: Swap)
    requires f(st.a) * f(st.b) < 0.0
    ensures Step(f, st, tol, rule, swap).Ok?
    ensures var n := Step(f, st, tol, rule, swap).value; f(n.a) * f(n.b) <= 0.0
  {
    NegativeProductDistinct(f(st.a), f(st.b));
    var r := Step(f, st, tol, rule, swap);
    assert r.Ok?;
    var n := r.value;
    var s := NextPoint(f, st, tol, rule).value.s;
    assert if f(st.a) * f(s) < 0.0 then SamePair(n.a, n.b, st.a, s) else SamePair(n.a, n.b, s, st.b);
    KeptPairSign(f, n.a, n.b, st.a, st.b, s);
  }

  /** Under the bracket condition f(a)·f(b) <= 0 with f(b) != 0, neither
      interpolation formula divides by zero. */
  lemma StepDividesSafely(f: real -> real, st: State, tol: real, rule: Rule, swap: Swap)
    requires f(st.a) * f(st.b) <= 0.0 && f(st.b) != 0.0
    ensures Step(f, st, tol, rule, swap).Ok?
  {
    assert f(st.b) * f(st.b) > 0.0;
  }

  // ---------------------------------------------------------------------------
  // The loop
  // ---------------------------------------------------------------------------

  /** The state every driver starts from: a and b swapped so that b has the
      smaller |f|, c = a, d = 0, and "previous step bisected" set. */
  function Start(f: real -> real, a: real, b: real): (st: State)
    ensures Abs(f(st.b)) <= Abs(f(st.a))
    ensures SamePair(st.a, st.b, a, b)
    ensures st.c == st.a && st.d == 0.0 && st.mflag
  {
    if Abs(f(a)) < Abs(f(b)) then State(b, a, b, 0.0, true) else State(a, b, a, 0.0, true)
  }

  /** The loop guard. The published drivers also stop on an exact zero of
      f(b) or f(c) (zeroExit); the draft does not. */
  predicate Continues(f: real -> real, st: State, steps: int, maxIter: int, tol: real, zeroExit: bool) {
    && steps < maxIter
    && Abs(st.b - st.a) > tol
    && (zeroExit ==> f(st.b) != 0.0 && f(st.c) != 0.0)
  }

  /** Steps until the guard fails or a step raises. */
  function Iterate(f: real -> real, st: State, steps: int, maxIter: int, tol: real, rule: Rule, zeroExit: bool, swap: Swap): (r: Outcome<Run>)
    decreases maxIter - steps
    ensures r.Raise? ==> r.fault == ZeroDivisionError
    ensures r.Ok? ==> steps <= r.value.steps
    ensures r.Ok? && steps <= maxIter ==> r.value.steps <= maxIter
    ensures r.Ok? && steps > maxIter ==> r.value.steps == steps
    ensures r.Ok? ==> !Continues(f, r.value.state, r.value.steps, maxIter, tol, zeroExit)
    ensures r.Ok? ==> Between(r.value.state.a, st.a, st.b) && Between(r.value.state.b, st.a, st.b)
    ensures !Continues(f, st, steps, maxIter, tol, zeroExit) ==> r == Ok(Run(st, steps))
  {
    if !Continues(f, st, steps, maxIter, tol, zeroExit) then Ok(Run(st, steps))
    else
      var next :- Step(f, st, tol, rule, swap);
      Iterate(f, next, steps + 1, maxIter, tol, rule, zeroExit, swap)
  }

  /** A whole solve on one pair: swap, then iterate from zero steps. */
  function SolvePair(f: real -> real, a: real, b: real, maxIter: int, tol: real, rule: Rule, zeroExit: bool, swap: Swap): (r: Outcome<Run>)
    ensures r.Raise? ==> r.fault == ZeroDivisionError
    ensures r.Ok? ==> 0 <= r.value.steps && r.value.steps <= if maxIter < 0 then 0 else maxIter
    ensures r.Ok? ==> !Continues(f, r.value.state, r.value.steps, maxIter, tol, zeroExit)
    ensures r.Ok? ==> Between(r.value.state.b, a, b) && Between(r.value.state.a, a, b)
  {
    Iterate(f, Start(f, a, b), 0, maxIter, tol, rule, zeroExit, swap)
  }

  /** When an endpoint of the pair is an exact root, the published drivers
      take no step and return that endpoint. */
  lemma SolvePairAtRoot(f: real -> real, a: real, b: real, maxIter: int, tol: real, rule: Rule, swap: Swap)
    requires f(a) == 0.0 || f(b) == 0.0
    ensures SolvePair(f, a, b, maxIter, tol, rule, true, swap).Ok?
    ensures var run := SolvePair(f, a, b, maxIter, tol, rule, true, swap).value;
            && run.steps == 0
            && f(run.state.b) == 0.0
            && (run.state.b == a || run.state.b == b)
  {
    var st := Start(f, a, b);
    assert f(st.b) == 0.0;
  }

  /** Away from ties in |f|, the order in which the pair is given does not
      matter: the initial swap puts the smaller residual in b either way. */
  lemma SolvePairSymmetric(f: real -> real, a: real, b: real, maxIter: int, tol: real, rule: Rule, zeroExit: bool, swap: Swap)
    requires Abs(f(a)) != Abs(f(b))
    ensures SolvePair(f, a, b, maxIter, tol, rule, zeroExit, swap) == SolvePair(f, b, a, maxIter, tol, rule, zeroExit, swap)
  {
    assert Start(f, a, b) == Start(f, b, a);
  }

  // ---------------------------------------------------------------------------
  // The bracket across the whole loop
  // ---------------------------------------------------------------------------

  /** What the loop is meant to keep: f does not have the same strict sign
      at a and b, and b is the better estimate. */
  predicate Bracketed(f: real -> real, st: State) {
    f(st.a) * f(st.b) <= 0.0 && Abs(f(st.b)) <= Abs(f(st.a))
  }

  /** In a bracketed pair with distinct values the point further from zero
      is not a root. */
  lemma BracketEndNonZero(x: real, y: real)
    requires x * y <= 0.0 && Abs(y) <= Abs(x) && x != y
    ensures x != 0.0
  {
  }

  /** With the swap judged on the kept pair, a step from a bracketed state
      that does not divide by zero is bracketed again. */
  lemma StepKeepsBracket(f: real -> real, st: State, tol: real, rule: Rule)
    requires Bracketed(f, st) && f(st.a) != f(st.b)
    ensures Step(f, st, tol, rule, KeptValues).Ok?
    ensures Bracketed(f, Step(f, st, tol, rule, KeptValues).value)
  {
    BracketEndNonZero(f(st.a), f(st.b));
    var r := Step(f, st, tol, rule, KeptValues);
    var n := r.value;
    var s := NextPoint(f, st, tol, rule).value.s;
    assert if f(st.a) * f(s) < 0.0 then SamePair(n.a, n.b, st.a, s) else SamePair(n.a, n.b, s, st.b);
    KeptPairSign(f, n.a, n.b, st.a, st.b, s);
  }

  /** The corrected loop keeps the bracket to the end, and with the
      zero-residual exit it never divides by zero: a bracketed state whose
      f(b) is not zero has f(a) and f(b) of opposite signs. */
  lemma {:induction false} IterateKeepsBracket(f: real -> real, st: State, steps: int, maxIter: int, tol: real,
                                               rule: Rule, zeroExit: bool)
    requires Bracketed(f, st)
    ensures var r := Iterate(f, st, steps, maxIter, tol, rule, zeroExit, KeptValues);
            && (r.Ok? ==> Bracketed(f, r.value.state))
            && (zeroExit ==> r.Ok?)
    decreases maxIter - steps
  {
    if Continues(f, st, steps, maxIter, tol, zeroExit) {
      if f(st.b) != 0.0 {
        StepDividesSafely(f, st, tol, rule, KeptValues);
      }
      if f(st.a) != f(st.b) {
        StepKeepsBracket(f, st, tol, rule);
        var next := Step(f, st, tol, rule, KeptValues).value;
        IterateKeepsBracket(f, next, steps + 1, maxIter, tol, rule, zeroExit);
      }
    }
  }

  /** With the swap on the kept pair, a whole solve from a pair without a
      strict common sign ends bracketed, and with the zero-residual exit it
      never raises. */
  lemma SolvePairKeepsBracket(f: real -> real, a: real, b: real, maxIter: int, tol: real, rule: Rule, zeroExit: bool)
    requires f(a) * f(b) <= 0.0
    ensures var r := SolvePair(f, a, b, maxIter, tol, rule, zeroExit, KeptValues);
            && (r.Ok? ==> Bracketed(f, r.value.state))
            && (zeroExit ==> r.Ok?)
  {
    var st := Start(f, a, b);
    assert f(st.a) * f(st.b) == f(a) * f(b);
    IterateKeepsBracket(f, st, 0, maxIter, tol, rule, zeroExit);
  }

  /** The zero-residual exit also tests f(c). With that exit a step is only
      taken from an f(b) that is not zero, and c is the previous b, so the
      loop never stops on f(c) = 0 unless f(b) = 0 as well. */
  predicate RootCarriedToB(f: real -> real, st: State) {
    f(st.c) == 0.0 ==> f(st.b) == 0.0
  }

  lemma {:induction false} IterateCarriesRoot(f: real -> real, st: State, steps: int, maxIter: int, tol: real,
                                              rule: Rule, swap: Swap)
    requires RootCarriedToB(f, st)
    ensures var r := Iterate(f, st, steps, maxIter, tol, rule, true, swap);
            r.Ok? ==> RootCarriedToB(f, r.value.state)
    decreases maxIter - steps
  {
    if Continues(f, st, steps, maxIter, tol, true) {
      var r := Step(f, st, tol, rule, swap);
      if r.Ok? {
        assert r.value.c == st.b;
        IterateCarriesRoot(f, r.value, steps + 1, maxIter, tol, rule, swap);
      }
    }
  }

  /** How a run with the zero-residual exit ends: out of steps, with the
      pair within the width tolerance, or with b an exact root. */
  predicate Finished(f: real -> real, run: Run, maxIter: int, tol: real) {
    run.steps >= maxIter || Abs(run.state.b - run.state.a) <= tol || f(run.state.b) == 0.0
  }

  /** Under either swap, a solve with the zero-residual exit that does not
      raise is Finished: the f(c) test of the loop guard adds no way out. */
  lemma SolvePairStops(f: real -> real, a: real, b: real, maxIter: int, tol: real, rule: Rule, swap: Swap)
    ensures var r := SolvePair(f, a, b, maxIter, tol, rule, true, swap);
            r.Ok? ==> Finished(f, r.value, maxIter, tol)
  {
    var st := Start(f, a, b);
    if f(st.c) == 0.0 {
      assert Abs(f(st.b)) <= Abs(f(st.a)) == 0.0;
    }
    IterateCarriesRoot(f, st, 0, maxIter, tol, rule, swap);
  }

  /** The corrected solve from a pair without a strict common sign never
      raises and converges: it ends bracketed with b the better end, and
      out of steps, within the width tolerance, or at an exact root. */
  lemma SolvePairConverges(f: real -> real, a: real, b: real, maxIter: int, tol: real, rule: Rule)
    requires f(a) * f(b) <= 0.0
    ensures var r := SolvePair(f, a, b, maxIter, tol, rule, true, KeptValues);
            && r.Ok?
            && Bracketed(f, r.value.state)
            && Finished(f, r.value, maxIter, tol)
  {
    SolvePairKeepsBracket(f, a, b, maxIter, tol, rule, true);
    SolvePairStops(f, a, b, maxIter, tol, rule, KeptValues);
  }

  /** x is an exact root, or within tol of a point of [lo, hi] where f does
      not share its strict sign: for a continuous f, a root lies within tol
      of x. */
  ghost predicate NearSignChange(f: real -> real, x: real, tol: real, lo: real, hi: real) {
    f(x) == 0.0 || exists y :: Between(y, lo, hi) && Abs(y - x) <= tol && f(y) * f(x) <= 0.0
  }

  /** A bracketed run that stopped before the step cap leaves b near a sign
      change, with a as the witness. */
  lemma FinishedNearSignChange(f: real -> real, run: Run, maxIter: int, tol: real, lo: real, hi: real)
    requires Bracketed(f, run.state) && Finished(f, run, maxIter, tol) && run.steps < maxIter
    requires Between(run.state.a, lo, hi)
    ensures NearSignChange(f, run.state.b, tol, lo, hi)
  {
    var y := run.state.a;
    if f(run.state.b) != 0.0 {
      assert Between(y, lo, hi) && Abs(y - run.state.b) <= tol && f(y) * f(run.state.b) <= 0.0;
    }
  }

  // ---------------------------------------------------------------------------
  // The swap as written
  // ---------------------------------------------------------------------------

  function Identity(x: real): real {
    x
  }

  /** Once a sits at 1/4 + e above b = 1/4 with c one of the two, the source's
      step bisects towards b forever: secant gives 0, clause (i) rejects it,
      and the half kept is always [s, b]. b never moves. */
  lemma {:induction false} StaleSwapStuck(e: real, c: real, d: real, steps: int, maxIter: int, tol: real)
    requires e > 0.0 && (c == 0.25 + e || c == 0.25)
    ensures var r := Iterate(Identity, State(0.25 + e, 0.25, c, d, true), steps, maxIter, tol, Strict, true, EntryValues);
            r.Ok? && r.value.state.b == 0.25 && r.value.state.a > 0.25
    decreases maxIter - steps
  {
    var st := State(0.25 + e, 0.25, c, d, true);
    if Continues(Identity, st, steps, maxIter, tol, true) {
      assert 0.25 * (0.25 - (0.25 + e)) == 0.25 * (0.25 - (0.25 + e));
      assert (0.25 * (0.25 - (0.25 + e))) / (0.25 - (0.25 + e)) == 0.25;
      assert Secant(0.25 + e, 0.25, 0.25 + e, 0.25) == Ok(0.0);
      assert ForcesBisection(Strict, 0.25 + e, 0.25, c, d, 0.0, true, tol);
      assert NextPoint(Identity, st, tol, Strict) == Ok(Probe(0.25 + e / 2.0, true));
      assert (0.25 + e) * (0.25 + e / 2.0) > 0.0;
      var next := State(0.25 + e / 2.0, 0.25, 0.25, c, true);
      assert Step(Identity, st, tol, Strict, EntryValues) == Ok(next);
      StaleSwapStuck(e / 2.0, 0.25, c, steps + 1, maxIter, tol);
    }
  }

  /** For f(x) = x on the pair (−1, 0.5) the first step lands a on the root
      0, but the swap compares the values from before the step, so b stays
      at 0.5; the next step keeps [0.25, 0.5], where f is positive at both
      ends, and the source then halves towards 0.25 until the width
      tolerance stops it. Swapping on the kept pair returns the root after
      one step. */
  lemma StaleSwapLosesBracket()
    ensures var r := SolvePair(Identity, -1.0, 0.5, 50, 0.00000001, Strict, true, EntryValues);
            r.Ok? && r.value.state.b == 0.25 && Identity(r.value.state.a) * Identity(r.value.state.b) > 0.0
  {
    var tol := 0.00000001;
    var st0 := FirstProbeAtRoot();
    var st1 := State(0.0, 0.5, 0.5, -1.0, false);
    assert Step(Identity, st0, tol, Strict, EntryValues) == Ok(st1);
    assert Secant(0.0, 0.5, 0.0, 0.5) == Ok(0.0);
    assert ForcesBisection(Strict, 0.0, 0.5, 0.5, -1.0, 0.0, false, tol);
    assert NextPoint(Identity, st1, tol, Strict) == Ok(Probe(0.25, true));
    var st2 := State(0.5, 0.25, 0.5, 0.5, true);
    assert Step(Identity, st1, tol, Strict, EntryValues) == Ok(st2);
    assert Iterate(Identity, st0, 0, 50, tol, Strict, true, EntryValues)
        == Iterate(Identity, st2, 2, 50, tol, Strict, true, EntryValues);
    StaleSwapStuck(0.25, 0.5, 0.5, 2, 50, tol);
  }

  /** The same solve with the swap judged on the kept pair stops after one
      step with b on the root. */
  lemma KeptSwapFindsRoot()
    ensures SolvePair(Identity, -1.0, 0.5, 50, 0.00000001, Strict, true, KeptValues)
            == Ok(Run(State(0.5, 0.0, 0.5, -1.0, false), 1))
  {
    var tol := 0.00000001;
    var st0 := FirstProbeAtRoot();
    var fixed := State(0.5, 0.0, 0.5, -1.0, false);
    assert Step(Identity, st0, tol, Strict, KeptValues) == Ok(fixed);
    assert !Continues(Identity, fixed, 1, 50, tol, true);
  }

  /** The common start of both solves: on (−1, 0.5) the first probe is the
      secant point 0, the root of f(x) = x. */
  lemma FirstProbeAtRoot() returns (st0: State)
    ensures st0 == Start(Identity, -1.0, 0.5) == State(-1.0, 0.5, -1.0, 0.0, true)
    ensures NextPoint(Identity, st0, 0.00000001, Strict) == Ok(Probe(0.0, false))
  {
    st0 := Start(Identity, -1.0, 0.5);
    assert Secant(-1.0, 0.5, -1.0, 0.5) == Ok(0.0);
    assert !ForcesBisection(Strict, -1.0, 0.5, -1.0, 0.0, 0.0, true, 0.00000001);
  }

  /** f(x) = x up to 0, 2x on [0, 1/4], and 1/2 above. */
  function Ramp(x: real): real {
    if x <= 0.0 then x else if x <= 0.25 then 2.0 * x else 0.5
  }

  /** With the non-strict test, f = Ramp on (−1, 0.5) first probes the root
      0 and keeps (0, 0.5). The next step bisects to 1/4, where f is 1/2, and
      the source's swap, judged on f(0) = 0 against f(0.5), puts 0.5 in a
      and 1/4 in b. Now f(a) = f(b) and the third step divides by zero.
      Swapping on the kept pair ends after one step with b on the root. */
  lemma StaleSwapRaises()
    ensures SolvePair(Ramp, -1.0, 0.5, 50, 0.00000001, NonStrict, true, EntryValues) == Raise(ZeroDivisionError)
    ensures SolvePair(Ramp, -1.0, 0.5, 50, 0.00000001, NonStrict, true, KeptValues)
            == Ok(Run(State(0.5, 0.0, 0.5, -1.0, false), 1))
  {
    var tol := 0.00000001;
    var st0 := Start(Ramp, -1.0, 0.5);
    assert st0 == State(-1.0, 0.5, -1.0, 0.0, true);
    assert Secant(-1.0, 0.5, -1.0, 0.5) == Ok(0.0);
    assert !ForcesBisection(NonStrict, -1.0, 0.5, -1.0, 0.0, 0.0, true, tol);
    assert NextPoint(Ramp, st0, tol, NonStrict) == Ok(Probe(0.0, false));
    var st1 := State(0.0, 0.5, 0.5, -1.0, false);
    assert Step(Ramp, st0, tol, NonStrict, EntryValues) == Ok(st1);
    assert Secant(0.0, 0.5, 0.0, 0.5) == Ok(0.0);
    assert ForcesBisection(NonStrict, 0.0, 0.5, 0.5, -1.0, 0.0, false, tol);
    assert NextPoint(Ramp, st1, tol, NonStrict) == Ok(Probe(0.25, true));
    var st2 := State(0.5, 0.25, 0.5, 0.5, true);
    assert Step(Ramp, st1, tol, NonStrict, EntryValues) == Ok(st2);
    assert Step(Ramp, st2, tol, NonStrict, EntryValues).Raise?;
    assert Iterate(Ramp, st2, 2, 50, tol, NonStrict, true, EntryValues) == Raise(ZeroDivisionError);
    var fixed := State(0.5, 0.0, 0.5, -1.0, false);
    assert Step(Ramp, st0, tol, NonStrict, KeptValues) == Ok(fixed);
    assert !Continues(Ramp, fixed, 1, 50, tol, true);
  }

  // ---------------------------------------------------------------------------
  // Locality: the solver only looks at f inside the starting interval
  // ---------------------------------------------------------------------------

  /** f and g agree on the closed interval [lo, hi]. */
  ghost predicate AgreeOn(f: real -> real, g: real -> real, lo: real, hi: real) {
    forall x :: lo <= x <= hi ==> f(x) == g(x)
  }

  predicate InRange(st: State, lo: real, hi: real) {
    lo <= st.a <= hi && lo <= st.b <= hi && lo <= st.c <= hi
  }

  lemma StepLocal(f: real -> real, g: real -> real, st: State, tol: real, rule: Rule, swap: Swap, lo: real, hi: real)
    requires AgreeOn(f, g, lo, hi) && InRange(st, lo, hi)
    ensures Step(f, st, tol, rule, swap) == Step(g, st, tol, rule, swap)
    ensures Step(f, st, tol, rule, swap).Ok? ==> InRange(Step(f, st, tol, rule, swap).value, lo, hi)
  {
    assert f(st.a) == g(st.a) && f(st.b) == g(st.b) && f(st.c) == g(st.c);
    var p := NextPoint(f, st, tol, rule);
    assert p == NextPoint(g, st, tol, rule);
    if p.Ok? {
      var s := p.value.s;
      assert f(s) == g(s);
      var (a1, b1) := if f(st.a) * f(s) < 0.0 then (st.a, s) else (s, st.b);
      assert f(a1) == g(a1) && f(b1) == g(b1);
    }
  }

  /** Every point the loop evaluates f at stays inside [lo, hi] once the
      starting a, b and c do, so two functions that agree there give the
      same run. */
  lemma {:induction false} IterateLocal(f: real -> real, g: real -> real, st: State, steps: int, maxIter: int,
                                        tol: real, rule: Rule, zeroExit: bool, swap: Swap, lo: real, hi: real)
    requires AgreeOn(f, g, lo, hi) && InRange(st, lo, hi)
    ensures Iterate(f, st, steps, maxIter, tol, rule, zeroExit, swap) == Iterate(g, st, steps, maxIter, tol, rule, zeroExit, swap)
    decreases maxIter - steps
  {
    assert f(st.b) == g(st.b) && f(st.c) == g(st.c);
    if Continues(f, st, steps, maxIter, tol, zeroExit) {
      StepLocal(f, g, st, tol, rule, swap, lo, hi);
      var next := Step(f, st, tol, rule, swap);
      if next.Ok? {
        IterateLocal(f, g, next.value, steps + 1, maxIter, tol, rule, zeroExit, swap, lo, hi);
      }
    }
  }

  lemma SolvePairLocal(f: real -> real, g: real -> real, a: real, b: real, maxIter: int, tol: real,
                       rule: Rule, zeroExit: bool, swap: Swap)
    requires AgreeOn(f, g, Min(a, b), Max(a, b))
    ensures SolvePair(f, a, b, maxIter, tol, rule, zeroExit, swap) == SolvePair(g, a, b, maxIter, tol, rule, zeroExit, swap)
  {
    assert f(a) == g(a) && f(b) == g(b);
    assert Start(f, a, b) == Start(g, a, b);
    IterateLocal(f, g, Start(f, a, b), 0, maxIter, tol, rule, zeroExit, swap, Min(a, b), Max(a, b));
  }
}

=== FILE: data_manip.dfy ===
/** Turning CSV rows into records keyed by the header (scripts/data_manip.py):
    the first row is the header, each later row becomes a map from header
    names to cells, and an optional break point caps the number of rows. */
module DataManip {
  import opened Outcomes

  /** A row of the file: its cells, in order. */
  type Row = seq<string>

  /** A row keyed by the header. */
  type Record = map<string, string>

  /** keys[i] is the last occurrence of its name among keys[..n]: a later
      column with the same name overwrites it. */
  predicate LastAt(keys: Row, i: nat, n: nat)
    requires i < n <= |keys|
  {
    forall j :: i < j < n ==> keys[j] != keys[i]
  }

  /** The comprehension {keys[i]: row[i] for i in range(len(row))}, built in
      index order so that a repeated name keeps its last cell. */
  function Zip(row: Row, keys: Row): (m: Record)
    requires |row| <= |keys|
    decreases |row|
    ensures m.Keys == set i | 0 <= i < |row| :: keys[i]
    ensures forall i :: 0 <= i < |row| && LastAt(keys, i, |row|) ==> m[keys[i]] == row[i]
  {
    if row == [] then map[]
    else
      var n := |row| - 1;
      var init := Zip(row[..n], keys);
      ZipSnoc(row, keys, init);
      init[keys[n] := row[n]]
  }

  /** Adding the last cell on top of the prefix's map adds its key and
      overwrites any earlier cell under the same name. */
  lemma ZipSnoc(row: Row, keys: Row, init: Record)
    requires 0 < |row| <= |keys|
    requires init.Keys == set i | 0 <= i < |row| - 1 :: keys[i]
    requires forall i :: 0 <= i < |row| - 1 && LastAt(keys, i, |row| - 1) ==> init[keys[i]] == row[..|row| - 1][i]
    ensures init[keys[|row| - 1] := row[|row| - 1]].Keys == set i | 0 <= i < |row| :: keys[i]
    ensures forall i :: 0 <= i < |row| && LastAt(keys, i, |row|) ==> init[keys[|row| - 1] := row[|row| - 1]][keys[i]] == row[i]
  {
    var n := |row| - 1;
    var m := init[keys[n] := row[n]];
    assert (set i | 0 <= i < |row| :: keys[i]) == (set i | 0 <= i < n :: keys[i]) + {keys[n]};
    forall i | 0 <= i < |row| && LastAt(keys, i, |row|)
      ensures m[keys[i]] == row[i]
    {
      if i < n {
        assert keys[n] != keys[i];
        assert LastAt(keys, i, n);
        assert row[..n][i] == row[i];
      }
    }
  }

  /** dictionaryFormatter: indexing keys past its end raises IndexError, so a
      row longer than the header fails and a shorter one keys only its
      cells. */
  function DictionaryFormatter(row: Row, keys: Row): (r: Outcome<Record>)
    ensures r.Raise? <==> |row| > |keys|
    ensures r.Raise? ==> r.fault == IndexError
    ensures r.Ok? ==> r.value.Keys == set i | 0 <= i < |row| <= |keys| :: keys[i]
    ensures r.Ok? ==> forall i :: 0 <= i < |row| <= |keys| && LastAt(keys, i, |row|) ==> r.value[keys[i]] == row[i]
  {
    if |row| > |keys| then Raise(IndexError) else Ok(Zip(row, keys))
  }

  /** Every row formatted against the header, in order; the first row that
      fails decides the outcome. */
  function FormatRows(rows: seq<Row>, keys: Row): (r: Outcome<seq<Record>>)
    decreases |rows|
    ensures r.Raise? <==> exists i :: 0 <= i < |rows| && |rows[i]| > |keys|
    ensures r.Raise? ==> r.fault == IndexError
    ensures r.Ok? ==> |r.value| == |rows|
    ensures r.Ok? ==> forall i :: 0 <= i < |rows| ==> DictionaryFormatter(rows[i], keys) == Ok(r.value[i])
  {
    if rows == [] then Ok([])
    else
      var n := |rows| - 1;
      var prefix := rows[..n];
      assert forall i :: 0 <= i < n ==> prefix[i] == rows[i];
      match FormatRows(prefix, keys)
      case Raise(e) => Raise(e)
      case Ok(init) =>
        match DictionaryFormatter(rows[n], keys)
        case Raise(e) => Raise(e)
        case Ok(d) =>
          ExtendFormatted(rows, keys, init, d);
          Ok(init + [d])
  }

  lemma ExtendFormatted(rows: seq<Row>, keys: Row, recs: seq<Record>, d: Record)
    requires |rows| == |recs| + 1
    requires forall i :: 0 <= i < |recs| ==> DictionaryFormatter(rows[..|recs|][i], keys) == Ok(recs[i])
    requires DictionaryFormatter(rows[|recs|], keys) == Ok(d)
    ensures forall i :: 0 <= i < |rows| ==> DictionaryFormatter(rows[i], keys) == Ok((recs + [d])[i])
  {
    forall i | 0 <= i < |rows|
      ensures DictionaryFormatter(rows[i], keys) == Ok((recs + [d])[i])
    {
      if i < |recs| {
        assert rows[..|recs|][i] == rows[i];
        assert (recs + [d])[i] == recs[i];
      }
    }
  }

  /** How many of n data rows a break point lets through: a break point in
      [0, n] is a row count, anything else (the default −1) means all. */
  function Limit(breakPoint: int, n: nat): (k: nat)
    ensures k <= n
    ensures k < n ==> k == breakPoint
  {
    if 0 <= breakPoint <= n then breakPoint else n
  }

  /** Formatting one more row extends the formatted prefix. */
  lemma FormatRowsSnoc(rows: seq<Row>, row: Row, keys: Row, data: seq<Record>)
    ensures FormatRows(rows, keys) == Ok(data) && |row| <= |keys| ==>
              FormatRows(rows + [row], keys) == Ok(data + [DictionaryFormatter(row, keys).value])
  {
    assert (rows + [row])[..|rows|] == rows;
  }

  lemma SliceSnoc<T>(s: seq<T>, lo: nat, hi: nat)
    requires lo <= hi < |s|
    ensures s[lo..hi + 1] == s[lo..hi] + [s[hi]]
  {
  }

  lemma PrefixSnoc<T>(s: seq<T>, n: nat)
    requires n < |s|
    ensures s[..n + 1] == s[..n] + [s[n]]
  {
  }

  /** A row longer than the header sinks every batch that contains it. */
  lemma FormatRowsBadRow(rows: seq<Row>, keys: Row, j: nat)
    requires j < |rows| && |rows[j]| > |keys|
    ensures FormatRows(rows, keys) == Raise(IndexError)
  {
  }

  /** convert_to_array_of_dict: the first line is the header and each later
      line is formatted against it until break_point data rows are read. */
  method ConvertToArrayOfDict(lines: seq<Row>, breakPoint: int) returns (r: Outcome<seq<Record>>)
    ensures lines == [] ==> r == Ok([])
    ensures lines != [] ==> r == FormatRows(lines[1..][..Limit(breakPoint, |lines| - 1)], lines[0])
  {
    var lineCount, keys, data := 0, [], [];
    var i := 0;
    while i < |lines|
      invariant 0 <= i <= |lines|
      invariant i == 0 ==> lineCount == 0 && data == []
      invariant i > 0 ==> lineCount == i && keys == lines[0]
      invariant i > 0 ==> i - 1 <= Limit(breakPoint, |lines| - 1)
      invariant i > 0 ==> FormatRows(lines[1..i], keys) == Ok(data)
    {
      var row := lines[i];
      if lineCount == 0 {
        keys := row;
        lineCount := lineCount + 1;
        assert lines[1..i + 1] == [];
      } else if lineCount == breakPoint + 1 {
        break;
      } else {
        var d := DictionaryFormatter(row, keys);
        ghost var todo := lines[1..][..Limit(breakPoint, |lines| - 1)];
        if d.Raise? {
          assert todo[i - 1] == row;
          FormatRowsBadRow(todo, keys, i - 1);
          return Raise(IndexError);
        }
        SliceSnoc(lines, 1, i);
        FormatRowsSnoc(lines[1..i], row, keys, data);
        data := data + [d.value];
        lineCount := lineCount + 1;
      }
      i := i + 1;
    }
    if lines != [] {
      assert lines[1..][..Limit(breakPoint, |lines| - 1)] == lines[1..i];
    }
    return Ok(data);
  }
}

=== FILE: draft_brent.dfy ===
/** The draft root finder (notes/brent_decker.py). It asserts the sign change
    instead of returning NaN, has no zero-residual exit, and always returns
    `(b, steps)`. Its loop body is the non-strict step shared with
    scripts/brent_dekker.py. */
module DraftBrent {
  import opened Outcomes
  import opened Brent

  /** The draft's run on (a, b). The source asserts f(a)·f(b) <= 0 before
      anything else; the swap compares the f-values from before the step. */
  function DraftRun(f: real -> real, a: real, b: real, maxIter: int, tol: real): (r: Outcome<Run>)
    requires f(a) * f(b) <= 0.0
    ensures r.Raise? ==> r.fault == ZeroDivisionError
    // the loop stops only on the step cap or the width tolerance
    ensures r.Ok? ==> r.value.steps >= maxIter || Abs(r.value.state.b - r.value.state.a) <= tol
    ensures r.Ok? ==> 0 <= r.value.steps && r.value.steps <= if maxIter < 0 then 0 else maxIter
    ensures r.Ok? ==> Between(r.value.state.b, a, b) && Between(r.value.state.a, a, b)
  {
    SolvePair(f, a, b, maxIter, tol, NonStrict, false, EntryValues)
  }

  /** The draft's run with the swap judged on the kept pair: the pair stays
      bracketed with b the better end, and a run that stopped short of the
      cap leaves b an exact root or within tol of a sign change. */
  function DraftRunCorrected(f: real -> real, a: real, b: real, maxIter: int, tol: real): (r: Outcome<Run>)
    requires f(a) * f(b) <= 0.0
    ensures r.Raise? ==> r.fault == ZeroDivisionError
    ensures r.Ok? ==> r.value.steps >= maxIter || Abs(r.value.state.b - r.value.state.a) <= tol
    ensures r.Ok? ==> 0 <= r.value.steps && r.value.steps <= if maxIter < 0 then 0 else maxIter
    ensures r.Ok? ==> Between(r.value.state.b, a, b) && Between(r.value.state.a, a, b)
    ensures r.Ok? ==> Bracketed(f, r.value.state)
    ensures r.Ok? && r.value.steps < maxIter ==> NearSignChange(f, r.value.state.b, tol, a, b)
  {
    SolvePairKeepsBracket(f, a, b, maxIter, tol, NonStrict, false);
    var r := SolvePair(f, a, b, maxIter, tol, NonStrict, false, KeptValues);
    if r.Ok? && r.value.steps < maxIter then
      FinishedNearSignChange(f, r.value, maxIter, tol, a, b);
      r
    else
      r
  }

  /** brent_dekker from the notes: the estimate and the step count. */
  function DraftBrentDekker(f: real -> real, a: real, b: real, maxIter: int, tol: real): (r: Outcome<(real, int)>)
    requires f(a) * f(b) <= 0.0
    ensures r.Raise? ==> r.fault == ZeroDivisionError
    ensures r.Ok? ==> Between(r.value.0, a, b)
    ensures r.Ok? ==> 0 <= r.value.1 && r.value.1 <= if maxIter < 0 then 0 else maxIter
  {
    var run :- DraftRun(f, a, b, maxIter, tol);
    Ok((run.state.b, run.steps))
  }

  /** The draft returns the b and step count of a run that ended on the
      step cap or the width tolerance, or raises exactly when that run
      divides by zero. */
  lemma DraftBrentDekkerStops(f: real -> real, a: real, b: real, maxIter: int, tol: real)
    requires f(a) * f(b) <= 0.0
    ensures var r := DraftBrentDekker(f, a, b, maxIter, tol);
            var run := DraftRun(f, a, b, maxIter, tol);
            && (r.Raise? <==> run.Raise?)
            && (run.Ok? ==> && r.value == (run.value.state.b, run.value.steps)
                            && (run.value.steps >= maxIter || Abs(run.value.state.b - run.value.state.a) <= tol))
  {
  }

  /** The draft divides by zero on the ramp (−1, 0.5) although f(−1) and
      f(0.5) have opposite signs: the first step lands on the root 0, the
      second bisects to 1/4, and the stale swap leaves f(a) = f(b) = 1/2. */
  lemma DraftRaisesOnRamp()
    ensures DraftBrentDekker(Ramp, -1.0, 0.5, 50, 0.00000001) == Raise(ZeroDivisionError)
  {
    var tol := 0.00000001;
    var st0 := Start(Ramp, -1.0, 0.5);
    assert st0 == State(-1.0, 0.5, -1.0, 0.0, true);
    assert Secant(-1.0, 0.5, -1.0, 0.5) == Ok(0.0);
    assert !ForcesBisection(NonStrict, -1.0, 0.5, -1.0, 0.0, 0.0, true, tol);
    assert NextPoint(Ramp, st0, tol, NonStrict) == Ok(Probe(0.0, false));
    var st1 := State(0.0, 0.5, 0.5, -1.0, false);
    assert Step(Ramp, st0, tol, NonStrict, EntryValues) == Ok(st1);
    assert Secant(0.0, 0.5, 0.0, 0.5) == Ok(0.0);
    assert ForcesBisection(NonStrict, 0.0, 0.5, 0.5, -1.0, 0.0, false, tol);
    assert NextPoint(Ramp, st1, tol, NonStrict) == Ok(Probe(0.25, true));
    var st2 := State(0.5, 0.25, 0.5, 0.5, true);
    assert Step(Ramp, st1, tol, NonStrict, EntryValues) == Ok(st2);
    assert Step(Ramp, st2, tol, NonStrict, EntryValues).Raise?;
    assert Iterate(Ramp, st2, 2, 50, tol, NonStrict, false, EntryValues) == Raise(ZeroDivisionError);
  }

  /** Without the zero-residual exit the draft steps past an exact root:
      for f(x) = x on (−1, 0) it takes one step where scripts/brent_dekker.py
      takes none, and still lands on 0. */
  lemma DraftStepsPastExactRoot()
    ensures DraftBrentDekker(x => x, -1.0, 0.0, 50, 0.00000001) == Ok((0.0, 1))
  {
    var f: real -> real := x => x;
    var st := Start(f, -1.0, 0.0);
    assert st == State(-1.0, 0.0, -1.0, 0.0, true);
    assert Secant(-1.0, 0.0, -1.0, 0.0) == Ok(0.0);
    assert NextPoint(f, st, 0.00000001, NonStrict) == Ok(Probe(0.0, false));
    var next := State(0.0, 0.0, 0.0, -1.0, false);
    assert Step(f, st, 0.00000001, NonStrict, EntryValues) == Ok(next);
    assert !Continues(f, next, 1, 50, 0.00000001, false);
    assert Iterate(f, next, 1, 50, 0.00000001, NonStrict, false, EntryValues) == Ok(Run(next, 1));
  }

  /** With f ≡ 0 the draft's assertion passes, the loop runs, and the secant
      divides by f(b) − f(a) = 0. */
  lemma DraftZeroFunctionRaises()
    ensures DraftBrentDekker(x => 0.0, 0.0, 1.0, 50, 0.00000001) == Raise(ZeroDivisionError)
  {
    var f: real -> real := x => 0.0;
    var st := Start(f, 0.0, 1.0);
    assert st == State(0.0, 1.0, 0.0, 0.0, true);
    assert Step(f, st, 0.00000001, NonStrict, EntryValues).Raise?;
  }
}

=== FILE: ladder_search.dfy ===
/** The root search over a ladder of bounds (scripts/bd_var_bounds.py): reject
    when f is already positive at the lowest bound, pick the first adjacent
    pair of bounds whose f-values bracket a sign change, and run the strict
    Brent–Dekker iteration with the zero-residual exit on that pair. */
module LadderSearch {
  import opened Outcomes
  import opened Brent

  /** The pair (bounds[j], bounds[j+1]) brackets a sign change in the sense
      of the source: the product of its f-values is not positive. */
  predicate PairBrackets(f: real -> real, bounds: seq<real>, j: nat)
    requires j + 1 < |bounds|
  {
    f(bounds[j]) * f(bounds[j + 1]) <= 0.0
  }

  /** The index of the first bracketing adjacent pair at or after i. */
  function FirstBracket(f: real -> real, bounds: seq<real>, i: nat): (r: Option<nat>)
    decreases |bounds| - i
    ensures r.Some? ==> i <= r.value && r.value + 1 < |bounds| && PairBrackets(f, bounds, r.value)
    ensures r.Some? ==> forall j :: i <= j < r.value ==> !PairBrackets(f, bounds, j)
    ensures r.None? <==> forall j :: i <= j && j + 1 < |bounds| ==> !PairBrackets(f, bounds, j)
  {
    if i + 1 >= |bounds| then None
    else if PairBrackets(f, bounds, i) then Some(i)
    else FirstBracket(f, bounds, i + 1)
  }

  /** bd_var_bounds with the swap test as a parameter: the root estimate,
      NaN for "no root in the ladder", or the exception raised. An empty
      ladder fails at bounds[0]; a one-element ladder whose f-value is not
      positive reaches the swap with a and b never assigned; the iteration
      itself can only divide by zero. */
  function LadderRoot(f: real -> real, bounds: seq<real>, maxIter: int, tol: real, swap: Swap): (r: Outcome<Num>)
    ensures |bounds| == 0 <==> r == Raise(IndexError)
    ensures |bounds| == 1 && f(bounds[0]) <= 0.0 ==> r == Raise(UnboundLocalError)
    ensures r.Raise? ==> r.fault == IndexError || r.fault == UnboundLocalError || r.fault == ZeroDivisionError
    ensures r == Raise(ZeroDivisionError) ==>
              |bounds| >= 2 && f(bounds[0]) <= 0.0 && FirstBracket(f, bounds, 0).Some?
    ensures |bounds| > 0 && f(bounds[0]) > 0.0 ==> r == Ok(NaN)
    ensures r == Ok(NaN) <==>
              |bounds| > 0 && (f(bounds[0]) > 0.0 || (|bounds| >= 2 && FirstBracket(f, bounds, 0).None?))
    ensures r.Ok? && r.value.Real? ==>
              && |bounds| >= 2
              && FirstBracket(f, bounds, 0).Some?
              && var j := FirstBracket(f, bounds, 0).value;
                 Between(r.value.value, bounds[j], bounds[j + 1])
  {
    if |bounds| == 0 then Raise(IndexError)
    else if f(bounds[0]) > 0.0 then Ok(NaN)
    else if |bounds| == 1 then Raise(UnboundLocalError)
    else
      match FirstBracket(f, bounds, 0)
      case None => Ok(NaN)
      case Some(j) =>
        var run :- SolvePair(f, bounds[j], bounds[j + 1], maxIter, tol, Strict, true, swap);
        Ok(Real(run.state.b))
  }

  /** bd_var_bounds as written: the swap compares the f-values from before
      the step. Beyond the ladder's own errors it can divide by zero. */
  function BdVarBounds(f: real -> real, bounds: seq<real>, maxIter: int, tol: real): (r: Outcome<Num>)
    ensures |bounds| == 0 <==> r == Raise(IndexError)
    ensures |bounds| == 1 && f(bounds[0]) <= 0.0 ==> r == Raise(UnboundLocalError)
    ensures r.Raise? ==> r.fault == IndexError || r.fault == UnboundLocalError || r.fault == ZeroDivisionError
    ensures r == Raise(ZeroDivisionError) ==>
              |bounds| >= 2 && f(bounds[0]) <= 0.0 && FirstBracket(f, bounds, 0).Some?
    ensures r == Ok(NaN) <==>
              |bounds| > 0 && (f(bounds[0]) > 0.0 || (|bounds| >= 2 && FirstBracket(f, bounds, 0).None?))
    ensures r.Ok? && r.value.Real? ==>
              && |bounds| >= 2
              && FirstBracket(f, bounds, 0).Some?
              && var j := FirstBracket(f, bounds, 0).value;
                 Between(r.value.value, bounds[j], bounds[j + 1])
  {
    LadderRoot(f, bounds, maxIter, tol, EntryValues)
  }

  /** On the search branch the estimate is the b of a run that ended on the
      step cap, the width tolerance or an exact root; the f(c) test of the
      loop adds no exit of its own. */
  lemma BdVarBoundsStops(f: real -> real, bounds: seq<real>, maxIter: int, tol: real)
    requires |bounds| >= 2 && f(bounds[0]) <= 0.0 && FirstBracket(f, bounds, 0).Some?
    ensures var j := FirstBracket(f, bounds, 0).value;
            var run := SolvePair(f, bounds[j], bounds[j + 1], maxIter, tol, Strict, true, EntryValues);
            && (run.Raise? <==> BdVarBounds(f, bounds, maxIter, tol) == Raise(ZeroDivisionError))
            && (run.Ok? ==> && BdVarBounds(f, bounds, maxIter, tol) == Ok(Real(run.value.state.b))
                            && Finished(f, run.value, maxIter, tol))
  {
    var j := FirstBracket(f, bounds, 0).value;
    var run := SolvePair(f, bounds[j], bounds[j + 1], maxIter, tol, Strict, true, EntryValues);
    assert BdVarBounds(f, bounds, maxIter, tol) == if run.Raise? then Raise(ZeroDivisionError) else Ok(Real(run.value.state.b));
    SolvePairStops(f, bounds[j], bounds[j + 1], maxIter, tol, Strict, EntryValues);
  }

  /** bd_var_bounds with the swap judged on the kept pair: the only
      exceptions left are the ladder's own. */
  function BdVarBoundsCorrected(f: real -> real, bounds: seq<real>, maxIter: int, tol: real): (r: Outcome<Num>)
    ensures r.Raise? <==> |bounds| == 0 || (|bounds| == 1 && f(bounds[0]) <= 0.0)
    ensures r == Ok(NaN) <==>
              |bounds| > 0 && (f(bounds[0]) > 0.0 || (|bounds| >= 2 && FirstBracket(f, bounds, 0).None?))
    ensures r.Ok? && r.value.Real? ==>
              && |bounds| >= 2
              && FirstBracket(f, bounds, 0).Some?
              && var j := FirstBracket(f, bounds, 0).value;
                 Between(r.value.value, bounds[j], bounds[j + 1])
  {
    if |bounds| >= 2 && f(bounds[0]) <= 0.0 && FirstBracket(f, bounds, 0).Some? then
      var j := FirstBracket(f, bounds, 0).value;
      SolvePairKeepsBracket(f, bounds[j], bounds[j + 1], maxIter, tol, Strict, true);
      LadderRoot(f, bounds, maxIter, tol, KeptValues)
    else
      LadderRoot(f, bounds, maxIter, tol, KeptValues)
  }

  /** The corrected search converges on the first bracketing pair: the
      estimate is the b of a bracketed run that ended on the step cap, the
      width tolerance or an exact root, and short of the cap it is an exact
      root or within tol of a point of the pair where f changes sign. */
  lemma BdVarBoundsCorrectedConverges(f: real -> real, bounds: seq<real>, maxIter: int, tol: real)
    requires |bounds| >= 2 && f(bounds[0]) <= 0.0 && FirstBracket(f, bounds, 0).Some?
    ensures var j := FirstBracket(f, bounds, 0).value;
            var run := SolvePair(f, bounds[j], bounds[j + 1], maxIter, tol, Strict, true, KeptValues);
            && run.Ok?
            && BdVarBoundsCorrected(f, bounds, maxIter, tol) == Ok(Real(run.value.state.b))
            && Bracketed(f, run.value.state)
            && Finished(f, run.value, maxIter, tol)
            && (run.value.steps < maxIter ==> NearSignChange(f, run.value.state.b, tol, bounds[j], bounds[j + 1]))
  {
    var j := FirstBracket(f, bounds, 0).value;
    SolvePairConverges(f, bounds[j], bounds[j + 1], maxIter, tol, Strict);
    var run := SolvePair(f, bounds[j], bounds[j + 1], maxIter, tol, Strict, true, KeptValues).value;
    if run.steps < maxIter {
      FinishedNearSignChange(f, run, maxIter, tol, bounds[j], bounds[j + 1]);
    }
  }

  /** When an endpoint of the chosen pair is an exact root, that endpoint is
      returned: the swap puts it in b and the loop exits before any step. */
  lemma ExactRootEndpoint(f: real -> real, bounds: seq<real>, maxIter: int, tol: real, j: nat)
    requires |bounds| >= 2 && f(bounds[0]) <= 0.0
    requires FirstBracket(f, bounds, 0) == Some(j)
    requires f(bounds[j]) == 0.0 || f(bounds[j + 1]) == 0.0
    ensures BdVarBounds(f, bounds, maxIter, tol).Ok?
    ensures var x := BdVarBounds(f, bounds, maxIter, tol).value;
            x.Real? && f(x.value) == 0.0 && (x.value == bounds[j] || x.value == bounds[j + 1])
  {
    SolvePairAtRoot(f, bounds[j], bounds[j + 1], maxIter, tol, Strict, EntryValues);
  }

  /** The no-root cases of the repository's unit tests, for x² − 20: no
      sign change on [2, 3] or on [−2, 0], and on [3, 4, 5] the search
      moves past (3, 4) to the pair (4, 5). */
  lemma LadderExamples()
    ensures BdVarBounds(x => x * x - 20.0, [2.0, 3.0], 50, 0.00000001) == Ok(NaN)
    ensures BdVarBounds(x => x * x - 20.0, [-2.0, 0.0], 50, 0.00000001) == Ok(NaN)
    ensures FirstBracket(x => x * x - 20.0, [3.0, 4.0, 5.0], 0) == Some(1)
  {
    var f: real -> real := x => x * x - 20.0;
    assert !PairBrackets(f, [2.0, 3.0], 0);
    assert !PairBrackets(f, [-2.0, 0.0], 0);
    assert !PairBrackets(f, [3.0, 4.0, 5.0], 0);
    assert PairBrackets(f, [3.0, 4.0, 5.0], 1);
  }

  /** The ladder is in non-decreasing order. */
  predicate Sorted(bounds: seq<real>) {
    forall i, j :: 0 <= i <= j < |bounds| ==> bounds[i] <= bounds[j]
  }

  /** f and g agree at every bound of the ladder. */
  ghost predicate AgreeAtBounds(f: real -> real, g: real -> real, bounds: seq<real>) {
    forall j :: 0 <= j < |bounds| ==> f(bounds[j]) == g(bounds[j])
  }

  lemma PairBracketsLocal(f: real -> real, g: real -> real, bounds: seq<real>, j: nat)
    requires j + 1 < |bounds|
    requires f(bounds[j]) == g(bounds[j]) && f(bounds[j + 1]) == g(bounds[j + 1])
    ensures PairBrackets(f, bounds, j) == PairBrackets(g, bounds, j)
  {
  }

  lemma {:induction false} FirstBracketLocal(f: real -> real, g: real -> real, bounds: seq<real>, i: nat)
    requires AgreeAtBounds(f, g, bounds)
    decreases |bounds| - i
    ensures FirstBracket(f, bounds, i) == FirstBracket(g, bounds, i)
  {
    if i + 1 < |bounds| {
      PairBracketsLocal(f, g, bounds, i);
      FirstBracketLocal(f, g, bounds, i + 1);
    }
  }

  /** On a sorted ladder the search only looks at f between the lowest and
      the highest bound: two functions that agree there give the same
      outcome. */
  lemma BdVarBoundsLocal(f: real -> real, g: real -> real, bounds: seq<real>, maxIter: int, tol: real)
    requires |bounds| > 0 && Sorted(bounds)
    requires AgreeOn(f, g, bounds[0], bounds[|bounds| - 1])
    ensures BdVarBounds(f, bounds, maxIter, tol) == BdVarBounds(g, bounds, maxIter, tol)
  {
    var lo, hi := bounds[0], bounds[|bounds| - 1];
    forall j | 0 <= j < |bounds|
      ensures f(bounds[j]) == g(bounds[j])
    {
      assert lo <= bounds[j] <= hi;
    }
    FirstBracketLocal(f, g, bounds, 0);
    match FirstBracket(f, bounds, 0)
    case None =>
    case Some(j) =>
      var a, b := bounds[j], bounds[j + 1];
      assert lo <= a <= hi && lo <= b <= hi;
      assert AgreeOn(f, g, Min(a, b), Max(a, b));
      SolvePairLocal(f, g, a, b, maxIter, tol, Strict, true, EntryValues);
  }
}

=== FILE: outcomes.dfy ===
/** Values shared by every module of the model: the Python float with its NaN
    sentinel, the exceptions the modelled code can raise, and small real helpers. */
module Outcomes {

  /** The Python exceptions that the modelled functions can raise. */
  datatype Fault =
    | ZeroDivisionError
    | IndexError
    | UnboundLocalError
    | KeyError
    | ValueError
    | TypeError

  /** A Python float as the model sees it: a real value, or the NaN sentinel
      that the solvers return for "no root in range". */
  datatype Num = Real(value: real) | NaN

  /** The result of a call that either returns a value or raises. Usable with `:-`. */
  datatype Outcome<+T> = Ok(value: T) | Raise(fault: Fault) {

    predicate IsFailure() {
      Raise?
    }

    function PropagateFailure<U>(): Outcome<U>
      requires Raise?
    {
      Raise(fault)
    }

    function Extract(): T
      requires Ok?
    {
      value
    }
  }

  datatype Option<+T> = None | Some(value: T)

  function Abs(x: real): real {
    if x < 0.0 then -x else x
  }

  function Min(x: real, y: real): real {
    if x <= y then x else y
  }

  function Max(x: real, y: real): real {
    if x <= y then y else x
  }

  /** x lies in the closed interval spanned by a and b, in either order. */
  predicate Between(x: real, a: real, b: real) {
    Min(a, b) <= x <= Max(a, b)
  }

  /** (x, y) is the pair (p, q) in one order or the other. */
  predicate SamePair(x: real, y: real, p: real, q: real) {
    (x == p && y == q) || (x == q && y == p)
  }
}

=== FILE: pricing.dfy ===
/** The closed-form prices of scripts/trade_classes.py as functions of the
    volatility σ. The library functions they call (the standard normal cdf
    and pdf, exp, log and sqrt) are left uninterpreted in a Kernel; the
    formulas around them are written out as the source writes them. */
module Pricing {
  import opened Outcomes

  /** The library functions the formulas call, left uninterpreted. */
  datatype Kernel = Kernel(
    cdf: real -> real,
    pdf: real -> real,
    exp: real -> real,
    log: real -> real,
    sqrt: real -> real)

  /** What the formulas need of the library to be well defined on a valid
      trade: exp is positive and sqrt is positive on positive arguments. */
  ghost predicate PositiveKernel(k: Kernel) {
    && (forall x :: k.exp(x) > 0.0)
    && (forall x :: x > 0.0 ==> k.sqrt(x) > 0.0)
  }

  /** The cdf of a distribution symmetric about zero: N(−x) = 1 − N(x). */
  ghost predicate SymmetricCdf(k: Kernel) {
    forall x :: k.cdf(-x) == 1.0 - k.cdf(x)
  }

  /** The cdf takes values in [0, 1] and the pdf is not negative, as those of
      any distribution do. */
  ghost predicate ProbabilityKernel(k: Kernel) {
    && (forall x :: 0.0 <= k.cdf(x) <= 1.0)
    && (forall x :: 0.0 <= k.pdf(x))
  }

  /** The contract terms the formulas read: underlying S, strike K, rate r,
      years to expiry t. */
  datatype Terms = Terms(spot: real, strike: real, rate: real, years: real)

  /** A valid trade in the sense of the data model: S, K and t positive. */
  predicate ValidTerms(c: Terms) {
    c.spot > 0.0 && c.strike > 0.0 && c.years > 0.0
  }

  /** Python's x / y for a divisor that can be zero. Python raises
      ZeroDivisionError there; the model yields 0, and DivisorsNonZero shows
      that no valid trade reaches that case for σ > 0. */
  function Quot(x: real, y: real): (q: real)
    ensures y != 0.0 ==> q * y == x
  {
    if y == 0.0 then 0.0 else x / y
  }

  /** The discount factor exp(−r·t). */
  function Discount(k: Kernel, c: Terms): real {
    k.exp(-c.rate * c.years)
  }

  /** σ·√t, the volatility scaled to the life of the option. */
  function Spread(k: Kernel, c: Terms, sigma: real): real {
    sigma * k.sqrt(c.years)
  }

  datatype Factors = Factors(d1: real, d2: real)

  /** A weight in [0, 1] scales a non-negative x into [0, x]. */
  lemma ScaledUnit(x: real, u: real)
    ensures x >= 0.0 && 0.0 <= u <= 1.0 ==> 0.0 <= x * u <= x
  {
    if x >= 0.0 && 0.0 <= u <= 1.0 {
      assert x * u <= x * 1.0;
    }
  }

  /** x·u − y·v lies in [−y, x] for non-negative x, y and weights u, v in [0, 1]. */
  lemma WeightedDifference(x: real, u: real, y: real, v: real)
    ensures x >= 0.0 && y >= 0.0 && 0.0 <= u <= 1.0 && 0.0 <= v <= 1.0 ==> -y <= x * u - y * v <= x
  {
    ScaledUnit(x, u);
    ScaledUnit(y, v);
  }

  /** A non-negative factor e scales x·u − y·v into [−e·y, e·x]. */
  lemma ScaledDifference(e: real, x: real, u: real, y: real, v: real)
    ensures e >= 0.0 && x >= 0.0 && y >= 0.0 && 0.0 <= u <= 1.0 && 0.0 <= v <= 1.0 ==>
              -(e * y) <= e * (x * u - y * v) <= e * x
  {
    if e >= 0.0 && x >= 0.0 && y >= 0.0 && 0.0 <= u <= 1.0 && 0.0 <= v <= 1.0 {
      var w := x * u - y * v;
      WeightedDifference(x, u, y, v);
      assert e * w <= e * x;
      assert e * -y <= e * w;
    }
  }

  /** A weight in [0, 1] keeps x·u above min(0, x). */
  lemma WeightedAboveMin(x: real, u: real)
    ensures 0.0 <= u <= 1.0 ==> x * u >= Min(0.0, x)
  {
    if 0.0 <= u <= 1.0 && x < 0.0 {
      assert x * u >= x * 1.0;
    }
  }

  /** Non-negative factors have a non-negative product. */
  lemma NonNegativeProduct(x: real, y: real)
    ensures x >= 0.0 && y >= 0.0 ==> x * y >= 0.0
  {
  }

  // ---------------------------------------------------------------------------
  // Black-Scholes (stock) and Black-76 (future)
  // ---------------------------------------------------------------------------

  /** Taking σ√t off a factor d1 with d1·σ√t = n, where √t squares back to
      t, leaves d2 with d2·σ√t = n − σ²t. */
  lemma ShiftBySpread(d1: real, sigma: real, root: real, t: real, n: real)
    ensures d1 * (sigma * root) == n && root * root == t ==>
              (d1 - sigma * root) * (sigma * root) == n - sigma * sigma * t
  {
    if d1 * (sigma * root) == n && root * root == t {
      var x := sigma * root;
      assert (d1 - x) * x == d1 * x - x * x;
      assert x * x == sigma * sigma * (root * root);
    }
  }

  /** d1 and d2 of the Black-Scholes model. With a nonzero strike and
      spread they are the textbook factors: d1·σ√t = log(S/K) + (r + σ²/2)t,
      and, when sqrt squares back to t, d2·σ√t = log(S/K) + (r − σ²/2)t. */
  function BlackScholesStockFactors(k: Kernel, c: Terms, sigma: real): (d: Factors)
    ensures c.strike != 0.0 && Spread(k, c, sigma) != 0.0 ==>
              d.d1 * Spread(k, c, sigma) == k.log(c.spot / c.strike) + (c.rate + sigma * sigma / 2.0) * c.years
    ensures c.strike != 0.0 && Spread(k, c, sigma) != 0.0 && k.sqrt(c.years) * k.sqrt(c.years) == c.years ==>
              d.d2 * Spread(k, c, sigma) == k.log(c.spot / c.strike) + (c.rate - sigma * sigma / 2.0) * c.years
  {
    var n := k.log(Quot(c.spot, c.strike)) + (c.rate + sigma * sigma / 2.0) * c.years;
    var d1 := Quot(n, Spread(k, c, sigma));
    ShiftBySpread(d1, sigma, k.sqrt(c.years), c.years, n);
    assert (c.rate + sigma * sigma / 2.0) * c.years - sigma * sigma * c.years
           == (c.rate - sigma * sigma / 2.0) * c.years;
    Factors(d1, d1 - Spread(k, c, sigma))
  }

  /** d1 and d2 of Black-76: the rate is taken out of the drift, so
      d1·σ√t = log(F/K) + (σ²/2)t and d2·σ√t = log(F/K) − (σ²/2)t under the
      same conditions. */
  function BlackScholesFutureFactors(k: Kernel, c: Terms, sigma: real): (d: Factors)
    ensures c.strike != 0.0 && Spread(k, c, sigma) != 0.0 ==>
              d.d1 * Spread(k, c, sigma) == k.log(c.spot / c.strike) + (sigma * sigma / 2.0) * c.years
    ensures c.strike != 0.0 && Spread(k, c, sigma) != 0.0 && k.sqrt(c.years) * k.sqrt(c.years) == c.years ==>
              d.d2 * Spread(k, c, sigma) == k.log(c.spot / c.strike) - (sigma * sigma / 2.0) * c.years
  {
    var n := k.log(Quot(c.spot, c.strike)) + (sigma * sigma / 2.0) * c.years;
    var d1 := Quot(n, Spread(k, c, sigma));
    ShiftBySpread(d1, sigma, k.sqrt(c.years), c.years, n);
    assert (sigma * sigma / 2.0) * c.years - sigma * sigma * c.years == -((sigma * sigma / 2.0) * c.years);
    Factors(d1, d1 - Spread(k, c, sigma))
  }

  /** S·N(d1) − K·exp(−rt)·N(d2). */
  function BlackScholesStockCall(k: Kernel, c: Terms, sigma: real): real {
    var d := BlackScholesStockFactors(k, c, sigma);
    c.spot * k.cdf(d.d1) - c.strike * Discount(k, c) * k.cdf(d.d2)
  }

  /** K·exp(−rt)·N(−d2) − S·N(−d1). */
  function BlackScholesStockPut(k: Kernel, c: Terms, sigma: real): real {
    var d := BlackScholesStockFactors(k, c, sigma);
    -c.spot * k.cdf(-d.d1) + c.strike * Discount(k, c) * k.cdf(-d.d2)
  }

  /** exp(−rt)·(F·N(d1) − K·N(d2)). */
  function BlackScholesFutureCall(k: Kernel, c: Terms, sigma: real): real {
    var d := BlackScholesFutureFactors(k, c, sigma);
    Discount(k, c) * (c.spot * k.cdf(d.d1) - c.strike * k.cdf(d.d2))
  }

  /** exp(−rt)·(K·N(−d2) − F·N(−d1)). */
  function BlackScholesFuturePut(k: Kernel, c: Terms, sigma: real): real {
    var d := BlackScholesFutureFactors(k, c, sigma);
    Discount(k, c) * (c.strike * k.cdf(-d.d2) - c.spot * k.cdf(-d.d1))
  }

  /** For any distribution the Black-Scholes call is worth at most the stock
      and loses at most the discounted strike. */
  lemma BlackScholesStockCallBounds(k: Kernel, c: Terms, sigma: real)
    requires ProbabilityKernel(k) && c.spot >= 0.0 && c.strike >= 0.0 && Discount(k, c) >= 0.0
    ensures -(c.strike * Discount(k, c)) <= BlackScholesStockCall(k, c, sigma) <= c.spot
  {
    var d := BlackScholesStockFactors(k, c, sigma);
    var m, u, v := c.strike * Discount(k, c), k.cdf(d.d1), k.cdf(d.d2);
    assert 0.0 <= u <= 1.0 && 0.0 <= v <= 1.0;
    NonNegativeProduct(c.strike, Discount(k, c));
    WeightedDifference(c.spot, u, m, v);
  }

  /** For any distribution the Black-Scholes put is worth at most the
      discounted strike and loses at most the stock. */
  lemma BlackScholesStockPutBounds(k: Kernel, c: Terms, sigma: real)
    requires ProbabilityKernel(k) && c.spot >= 0.0 && c.strike >= 0.0 && Discount(k, c) >= 0.0
    ensures -c.spot <= BlackScholesStockPut(k, c, sigma) <= c.strike * Discount(k, c)
  {
    var d := BlackScholesStockFactors(k, c, sigma);
    var m, u, v := c.strike * Discount(k, c), k.cdf(-d.d1), k.cdf(-d.d2);
    assert 0.0 <= u <= 1.0 && 0.0 <= v <= 1.0;
    NonNegativeProduct(c.strike, Discount(k, c));
    WeightedDifference(m, v, c.spot, u);
  }

  /** For any distribution the Black-76 call is worth at most the discounted
      future and loses at most the discounted strike. */
  lemma BlackScholesFutureCallBounds(k: Kernel, c: Terms, sigma: real)
    requires ProbabilityKernel(k) && c.spot >= 0.0 && c.strike >= 0.0 && Discount(k, c) >= 0.0
    ensures -(Discount(k, c) * c.strike) <= BlackScholesFutureCall(k, c, sigma) <= Discount(k, c) * c.spot
  {
    var d := BlackScholesFutureFactors(k, c, sigma);
    var u, v := k.cdf(d.d1), k.cdf(d.d2);
    assert 0.0 <= u <= 1.0 && 0.0 <= v <= 1.0;
    ScaledDifference(Discount(k, c), c.spot, u, c.strike, v);
  }

  /** For any distribution the Black-76 put is worth at most the discounted
      strike and loses at most the discounted future. */
  lemma BlackScholesFuturePutBounds(k: Kernel, c: Terms, sigma: real)
    requires ProbabilityKernel(k) && c.spot >= 0.0 && c.strike >= 0.0 && Discount(k, c) >= 0.0
    ensures -(Discount(k, c) * c.spot) <= BlackScholesFuturePut(k, c, sigma) <= Discount(k, c) * c.strike
  {
    var d := BlackScholesFutureFactors(k, c, sigma);
    var u, v := k.cdf(-d.d1), k.cdf(-d.d2);
    assert 0.0 <= u <= 1.0 && 0.0 <= v <= 1.0;
    ScaledDifference(Discount(k, c), c.strike, v, c.spot, u);
  }

  /** Put-call parity of the Black-Scholes stock formulas, for a symmetric
      cdf: P = C − S + K·exp(−rt). */
  lemma BlackScholesStockParity(k: Kernel, c: Terms, sigma: real)
    requires SymmetricCdf(k)
    ensures BlackScholesStockPut(k, c, sigma)
            == BlackScholesStockCall(k, c, sigma) - c.spot + c.strike * Discount(k, c)
  {
    var d := BlackScholesStockFactors(k, c, sigma);
    assert k.cdf(-d.d1) == 1.0 - k.cdf(d.d1);
    assert k.cdf(-d.d2) == 1.0 - k.cdf(d.d2);
  }

  /** Put-call parity of the Black-76 formulas, for a symmetric cdf:
      P = C + (K − S)·exp(−rt). */
  lemma BlackScholesFutureParity(k: Kernel, c: Terms, sigma: real)
    requires SymmetricCdf(k)
    ensures BlackScholesFuturePut(k, c, sigma)
            == BlackScholesFutureCall(k, c, sigma) + (c.strike - c.spot) * Discount(k, c)
  {
    var d := BlackScholesFutureFactors(k, c, sigma);
    assert k.cdf(-d.d1) == 1.0 - k.cdf(d.d1);
    assert k.cdf(-d.d2) == 1.0 - k.cdf(d.d2);
  }

  // ---------------------------------------------------------------------------
  // Bachelier
  // ---------------------------------------------------------------------------

  /** Over a positive divisor a quotient has the sign of its dividend. */
  lemma QuotSign(x: real, y: real)
    ensures y > 0.0 ==> (Quot(x, y) > 0.0 <==> x > 0.0) && (Quot(x, y) == 0.0 <==> x == 0.0)
  {
    if y > 0.0 {
      var q := Quot(x, y);
      assert q * y == x;
      if q > 0.0 {
        assert q * y > 0.0;
      } else if q < 0.0 {
        assert (-q) * y > 0.0;
      }
    }
  }

  /** d = (S − K·exp(−rt)) / (K·exp(−rt)·σ·√t). Over a positive divisor it
      is positive exactly when the stock is above the discounted strike, and
      zero exactly at the money. */
  function BachelierStockFactor(k: Kernel, c: Terms, sigma: real): (d: real)
    ensures c.strike * Discount(k, c) * Spread(k, c, sigma) > 0.0 ==>
              (d > 0.0 <==> c.spot > c.strike * Discount(k, c)) && (d == 0.0 <==> c.spot == c.strike * Discount(k, c))
    ensures c.spot == c.strike * Discount(k, c) ==> d == 0.0
  {
    var kmod := c.strike * Discount(k, c);
    QuotSign(c.spot - kmod, kmod * Spread(k, c, sigma));
    Quot(c.spot - kmod, kmod * Spread(k, c, sigma))
  }

  /** d = (S − K) / (K·σ·√t). Defined by the source but not called by its
      futures formulas, which use BachelierStockFactor. Over a positive
      divisor it is positive exactly when the future is above the strike. */
  function BachelierFutureFactor(k: Kernel, c: Terms, sigma: real): (d: real)
    ensures c.strike * Spread(k, c, sigma) > 0.0 ==>
              (d > 0.0 <==> c.spot > c.strike) && (d == 0.0 <==> c.spot == c.strike)
  {
    QuotSign(c.spot - c.strike, c.strike * Spread(k, c, sigma));
    Quot(c.spot - c.strike, c.strike * Spread(k, c, sigma))
  }

  /** (S − K·exp(−rt))·N(d) + K·exp(−rt)·σ√t·n(d). */
  function BachelierStockCall(k: Kernel, c: Terms, sigma: real): real {
    var d := BachelierStockFactor(k, c, sigma);
    var kmod := c.strike * Discount(k, c);
    (c.spot - kmod) * k.cdf(d) + kmod * Spread(k, c, sigma) * k.pdf(d)
  }

  /** At the money (S = K·exp(−rt)) the Bachelier call is K·exp(−rt)·σ√t·n(0),
      whatever the distribution. */
  lemma BachelierStockCallAtTheMoney(k: Kernel, c: Terms, sigma: real)
    requires c.spot == c.strike * Discount(k, c)
    ensures BachelierStockCall(k, c, sigma) == c.strike * Discount(k, c) * Spread(k, c, sigma) * k.pdf(0.0)
  {
    assert BachelierStockFactor(k, c, sigma) == 0.0;
  }

  /** For any distribution and a non-negative K·exp(−rt)·σ√t the Bachelier
      call is never below min(0, S − K·exp(−rt)). */
  lemma BachelierStockCallFloor(k: Kernel, c: Terms, sigma: real)
    requires ProbabilityKernel(k) && c.strike * Discount(k, c) * Spread(k, c, sigma) >= 0.0
    ensures BachelierStockCall(k, c, sigma) >= Min(0.0, c.spot - c.strike * Discount(k, c))
  {
    var d := BachelierStockFactor(k, c, sigma);
    var kmod := c.strike * Discount(k, c);
    WeightedAboveMin(c.spot - kmod, k.cdf(d));
    NonNegativeProduct(kmod * Spread(k, c, sigma), k.pdf(d));
  }

  /** The Bachelier stock put is the call shifted by K·exp(−rt) − S. */
  function BachelierStockPut(k: Kernel, c: Terms, sigma: real): (p: real)
    ensures p == BachelierStockCall(k, c, sigma) + c.strike * Discount(k, c) - c.spot
  {
    var d := BachelierStockFactor(k, c, sigma);
    var kmod := c.strike * Discount(k, c);
    (c.spot - kmod) * k.cdf(d) + kmod * Spread(k, c, sigma) * k.pdf(d) + kmod - c.spot
  }

  /** (F − K)·exp(−rt)·N(d) + K·exp(−rt)·σ√t·n(d), with d the stock factor. */
  function BachelierFutureCall(k: Kernel, c: Terms, sigma: real): real {
    var d := BachelierStockFactor(k, c, sigma);
    (c.spot - c.strike) * Discount(k, c) * k.cdf(d)
    + c.strike * Discount(k, c) * Spread(k, c, sigma) * k.pdf(d)
  }

  /** For any distribution and a non-negative K·exp(−rt)·σ√t the Bachelier
      futures call is never below min(0, (F − K)·exp(−rt)). */
  lemma BachelierFutureCallFloor(k: Kernel, c: Terms, sigma: real)
    requires ProbabilityKernel(k) && c.strike * Discount(k, c) * Spread(k, c, sigma) >= 0.0
    ensures BachelierFutureCall(k, c, sigma) >= Min(0.0, (c.spot - c.strike) * Discount(k, c))
  {
    var d := BachelierStockFactor(k, c, sigma);
    WeightedAboveMin((c.spot - c.strike) * Discount(k, c), k.cdf(d));
    NonNegativeProduct(c.strike * Discount(k, c) * Spread(k, c, sigma), k.pdf(d));
  }

  /** The Bachelier futures put is the call shifted by (K − S)·exp(−rt). */
  function BachelierFuturePut(k: Kernel, c: Terms, sigma: real): (p: real)
    ensures p == BachelierFutureCall(k, c, sigma) + (c.strike - c.spot) * Discount(k, c)
  {
    var d := BachelierStockFactor(k, c, sigma);
    var e := Discount(k, c);
    (c.spot - c.strike) * e * k.cdf(d) + c.strike * e * Spread(k, c, sigma) * k.pdf(d)
    + c.strike * e - c.spot * e
  }

  // ---------------------------------------------------------------------------
  // Well-definedness
  // ---------------------------------------------------------------------------

  /** Every divisor in the formulas above is nonzero, so Quot computes the
      true quotient everywhere the formulas divide. */
  predicate DivisorsNonZero(k: Kernel, c: Terms, sigma: real) {
    && c.strike != 0.0
    && Spread(k, c, sigma) != 0.0
    && c.strike * Discount(k, c) * Spread(k, c, sigma) != 0.0
    && c.strike * Spread(k, c, sigma) != 0.0
  }

  lemma PositiveProduct(x: real, y: real)
    requires x > 0.0 && y > 0.0
    ensures x * y > 0.0
  {
  }

  /** For a valid trade and a positive volatility no formula divides by
      zero; σ = 0 is where the source would raise. */
  lemma DivisorsNonZeroForPositiveVolatility(k: Kernel, c: Terms, sigma: real)
    requires PositiveKernel(k) && ValidTerms(c) && sigma > 0.0
    ensures DivisorsNonZero(k, c, sigma)
  {
    var root, e := k.sqrt(c.years), Discount(k, c);
    assert root > 0.0 && e > 0.0;
    PositiveProduct(sigma, root);
    PositiveProduct(c.strike, e);
    PositiveProduct(c.strike * e, Spread(k, c, sigma));
    PositiveProduct(c.strike, Spread(k, c, sigma));
  }

  lemma CancelPositive(u: real, v: real, x: real)
    requires x > 0.0 && u * x == v * x
    ensures u == v
  {
    assert (u - v) * x == 0.0;
  }

  lemma UnitFactor(e: real, x: real)
    requires x > 0.0 && x == e * x
    ensures e == 1.0
  {
    assert (e - 1.0) * x == 0.0;
  }

  lemma QuotientsDiffer(p: real, q: real, x: real, e: real)
    requires x > 0.0 && e > 0.0
    ensures Quot(p, e * x) == Quot(q, x) <==> p == e * q
  {
    PositiveProduct(e, x);
    var u, v := Quot(p, e * x), Quot(q, x);
    assert u * (e * x) == p && v * x == q;
    if u == v {
      assert p == e * (v * x);
    }
    if p == e * q {
      assert (u * e) * x == (v * e) * x;
      CancelPositive(u * e, v * e, x);
      assert u * e == v * e;
      CancelPositive(u, v, e);
    }
  }

  lemma DiscountedQuotients(spot: real, strike: real, e: real, x: real)
    requires spot > 0.0 && e > 0.0 && x > 0.0
    ensures Quot(spot - strike * e, e * x) == Quot(spot - strike, x) <==> e == 1.0
  {
    var p, q := spot - strike * e, spot - strike;
    QuotientsDiffer(p, q, x, e);
    var es, ek := e * spot, e * strike;
    assert e * q == es - ek;
    assert p == spot - ek;
    if e == 1.0 {
      assert es == spot;
    }
    if spot == es {
      UnitFactor(e, spot);
    }
  }

  /** The futures formulas use the stock factor; it coincides with the
      (unused) futures factor exactly when the discount factor is 1. */
  lemma BachelierFactorsAgreeIffNoDiscount(k: Kernel, c: Terms, sigma: real)
    requires PositiveKernel(k) && ValidTerms(c) && sigma > 0.0
    ensures BachelierStockFactor(k, c, sigma) == BachelierFutureFactor(k, c, sigma) <==> Discount(k, c) == 1.0
  {
    var e, x := Discount(k, c), c.strike * Spread(k, c, sigma);
    assert e > 0.0 && k.sqrt(c.years) > 0.0;
    PositiveProduct(sigma, k.sqrt(c.years));
    PositiveProduct(c.strike, Spread(k, c, sigma));
    assert (c.strike * e) * Spread(k, c, sigma) == e * x;
    assert BachelierStockFactor(k, c, sigma) == Quot(c.spot - c.strike * e, e * x);
    assert BachelierFutureFactor(k, c, sigma) == Quot(c.spot - c.strike, x);
    DiscountedQuotients(c.spot, c.strike, e, x);
  }
}

=== FILE: runner_methods.dfy ===
/** The application plumbing of scripts/runner_methods.py without its file
    I/O: command-line arguments, the CSV container, records keyed by the
    header, one trade object per record, the solve loop and the NaN count of
    the output. The input file's rows, Python's int() and float() and the
    pricing library arrive as parameters. */
module Runner {
  import opened Outcomes
  import opened DataManip
  import opened Pricing
  import opened TradeClasses

  // ---------------------------------------------------------------------------
  // ImpliedVolatilityCalculator
  // ---------------------------------------------------------------------------

  /** The calculator's settings: input and output paths and the number of
      data rows to run (−1 for all). */
  datatype Calculator = Calculator(inputFile: string, outputFile: string, linesToRun: int)

  /** ImpliedVolatilityCalculator.__init__ on sys.argv: both paths must be
      present, an optional fourth argument is parsed by int(), and any other
      count is rejected. */
  function NewCalculator(args: seq<string>, parseInt: string -> Option<int>): (r: Outcome<Calculator>)
    ensures r == Raise(IndexError) <==> |args| < 3
    ensures r.Raise? && |args| >= 3 ==> r.fault == ValueError
    ensures r.Ok? <==> |args| == 3 || (|args| == 4 && parseInt(args[3]).Some?)
    ensures r.Ok? ==> r.value.inputFile == args[1] && r.value.outputFile == args[2]
    ensures r.Ok? ==> r.value.linesToRun == if |args| == 3 then -1 else parseInt(args[3]).value
  {
    if |args| < 3 then Raise(IndexError)
    else if |args| == 3 then Ok(Calculator(args[1], args[2], -1))
    else if |args| == 4 then
      match parseInt(args[3])
      case None => Raise(ValueError)
      case Some(n) => Ok(Calculator(args[1], args[2], n))
    else Raise(ValueError)
  }

  // ---------------------------------------------------------------------------
  // CSVFileData
  // ---------------------------------------------------------------------------

  /** A header row and the rows under it; the input holds rows of text, the
      output rows of cells. */
  datatype CsvFileData<R> = CsvFileData(header: Row, body: seq<R>)

  /** create_CSVFileData_from_raw_CSV_file: the first row is the header, the
      rest the body; an empty file has no row 0. */
  function FromRawRows(rows: seq<Row>): (r: Outcome<CsvFileData<Row>>)
    ensures r.Raise? <==> rows == []
    ensures r.Raise? ==> r.fault == IndexError
    ensures r.Ok? ==> [r.value.header] + r.value.body == rows
  {
    if rows == [] then Raise(IndexError) else Ok(CsvFileData(rows[0], rows[1..]))
  }

  /** __data_as_dictionary: the body's rows keyed by the header, stopping
      once break_point rows are read. It yields the same records as
      DataManip.ConvertToArrayOfDict on the file's lines. */
  method DataAsDictionary(data: CsvFileData<Row>, breakPoint: int) returns (r: Outcome<seq<Record>>)
    ensures r == FormatRows(data.body[..Limit(breakPoint, |data.body|)], data.header)
  {
    var lineCount, keys, records := 0, data.header, [];
    while lineCount < |data.body|
      invariant 0 <= lineCount <= Limit(breakPoint, |data.body|)
      invariant FormatRows(data.body[..lineCount], keys) == Ok(records)
    {
      var row := data.body[lineCount];
      if lineCount == breakPoint {
        break;
      }
      var d := DictionaryFormatter(row, keys);
      ghost var todo := data.body[..Limit(breakPoint, |data.body|)];
      if d.Raise? {
        assert todo[lineCount] == row;
        FormatRowsBadRow(todo, keys, lineCount);
        return Raise(IndexError);
      }
      PrefixSnoc(data.body, lineCount);
      FormatRowsSnoc(data.body[..lineCount], row, keys, records);
      records := records + [d.value];
      lineCount := lineCount + 1;
    }
    assert data.body[..Limit(breakPoint, |data.body|)] == data.body[..lineCount];
    return Ok(records);
  }

  // ---------------------------------------------------------------------------
  // Trades
  // ---------------------------------------------------------------------------

  /** create_instance_of_trade_object: the record's model tag picks the
      class; any other tag is rejected. */
  function CreateTradeObject(data: Record, parseFloat: string -> Option<real>): (r: Outcome<Trade>)
    ensures "Model Type" !in data ==> r == Raise(KeyError)
    ensures ("Model Type" in data && data["Model Type"] != "Bachelier" && data["Model Type"] != "BlackScholes")
              ==> r == Raise(ValueError)
    ensures r.Ok? <==>
              && "Model Type" in data
              && (data["Model Type"] == "Bachelier" || data["Model Type"] == "BlackScholes")
              && Complete(data, parseFloat)
    ensures r.Raise? ==> r.fault == KeyError || r.fault == ValueError
    ensures r.Ok? ==> r.value.model == (if data["Model Type"] == "Bachelier" then Bachelier else BlackScholes)
    ensures r.Ok? ==> r.value.impVol == NaN
  {
    var tag :- Field(data, "Model Type");
    if tag == "Bachelier" then NewTrade(Bachelier, data, parseFloat)
    else if tag == "BlackScholes" then NewTrade(BlackScholes, data, parseFloat)
    else Raise(ValueError)
  }

  /** Index i holds the first item a fallible step fails on. */
  ghost predicate FirstFailure<T, U>(items: seq<T>, step: T -> Outcome<U>, i: int) {
    && 0 <= i < |items|
    && step(items[i]).Raise?
    && forall j :: 0 <= j < i ==> step(items[j]).Ok?
  }

  /** A fallible step applied to each item in order, stopping at the first
      exception: the loop shape shared by polymorphic_solve and the loop of
      calculate_implied_volatilities that builds the trades. */
  method EachInOrder<T, U>(items: seq<T>, step: T -> Outcome<U>) returns (r: Outcome<seq<U>>)
    ensures r.Raise? <==> exists i :: 0 <= i < |items| && step(items[i]).Raise?
    ensures r.Raise? ==> exists i :: FirstFailure(items, step, i) && r.fault == step(items[i]).fault
    ensures r.Ok? ==> |r.value| == |items|
    ensures r.Ok? ==> forall i :: 0 <= i < |items| ==> step(items[i]) == Ok(r.value[i])
  {
    var results := [];
    var i := 0;
    while i < |items|
      invariant 0 <= i <= |items| && |results| == i
      invariant forall j :: 0 <= j < i ==> step(items[j]) == Ok(results[j])
    {
      var outcome := step(items[i]);
      if outcome.Raise? {
        assert FirstFailure(items, step, i);
        return Raise(outcome.fault);
      }
      results := results + [outcome.value];
      i := i + 1;
    }
    return Ok(results);
  }

  /** The loop of calculate_implied_volatilities that builds a trade object
      per record: the first record that fails stops it with its exception. */
  method CreateTrades(records: seq<Record>, parseFloat: string -> Option<real>) returns (r: Outcome<seq<Trade>>)
    ensures r.Raise? <==> exists i :: 0 <= i < |records| && CreateTradeObject(records[i], parseFloat).Raise?
    ensures r.Raise? ==> exists i :: FirstFailure(records, data => CreateTradeObject(data, parseFloat), i)
                                     && r.fault == CreateTradeObject(records[i], parseFloat).fault
    ensures r.Ok? ==> |r.value| == |records|
    ensures r.Ok? ==> forall i :: 0 <= i < |records| ==> CreateTradeObject(records[i], parseFloat) == Ok(r.value[i])
  {
    r := EachInOrder(records, data => CreateTradeObject(data, parseFloat));
  }

  /** One trade solved and formatted as its output row. */
  function SolvedRow(k: Kernel, tr: Trade): (r: Outcome<seq<Cell>>)
    ensures r.Ok? <==> CalcImpliedVolatility(k, tr).Ok?
    ensures r.Ok? ==> r.value == FormatSolution(CalcImpliedVolatility(k, tr).value)
    ensures r.Raise? ==> r.fault == ZeroDivisionError
  {
    var solved :- CalcImpliedVolatility(k, tr);
    Ok(FormatSolution(solved))
  }

  /** polymorphic_solve: each trade solves for its implied volatility and
      becomes its output row, in order; an exception from the solver stops
      the loop. */
  method PolymorphicSolve(k: Kernel, trades: seq<Trade>) returns (r: Outcome<seq<seq<Cell>>>)
    ensures r.Raise? <==> exists i :: 0 <= i < |trades| && CalcImpliedVolatility(k, trades[i]).Raise?
    ensures r.Raise? ==> r.fault == ZeroDivisionError
    ensures r.Ok? ==> |r.value| == |trades|
    ensures r.Ok? ==> forall i :: 0 <= i < |trades| ==>
                        CalcImpliedVolatility(k, trades[i]).Ok?
                        && r.value[i] == FormatSolution(CalcImpliedVolatility(k, trades[i]).value)
  {
    r := EachInOrder(trades, tr => SolvedRow(k, tr));
  }

  /** The header of the output file, naming FormatSolution's columns. */
  const OutputHeader: Row := ["ID", "Spot", "Strike", "Risk-Free Rate", "Years to Expiry",
                              "Option Type", "Model Type", "Implied Volatility", "Market Price"]

  /** Each output column holds the field its header names. */
  lemma ColumnsAligned(tr: Trade)
    ensures |FormatSolution(tr)| == |OutputHeader|
    ensures OutputHeader[0] == "ID" && FormatSolution(tr)[0] == Text(tr.id)
    ensures OutputHeader[1] == "Spot" && FormatSolution(tr)[1] == Number(Real(tr.terms.spot))
    ensures OutputHeader[2] == "Strike" && FormatSolution(tr)[2] == Number(Real(tr.terms.strike))
    ensures OutputHeader[3] == "Risk-Free Rate" && FormatSolution(tr)[3] == Number(Real(tr.terms.rate))
    ensures OutputHeader[4] == "Years to Expiry" && FormatSolution(tr)[4] == Number(Real(tr.terms.years))
    ensures OutputHeader[5] == "Option Type" && FormatSolution(tr)[5] == Text(tr.optionType)
    ensures OutputHeader[6] == "Model Type" && FormatSolution(tr)[6] == Text(tr.modelType)
    ensures OutputHeader[7] == "Implied Volatility" && FormatSolution(tr)[7] == Number(tr.impVol)
    ensures OutputHeader[8] == "Market Price" && FormatSolution(tr)[8] == Number(Real(tr.marketPrice))
  {
  }

  /** One record through the whole pipeline: build the trade, solve it,
      format the row. */
  function SolveRecord(k: Kernel, data: Record, parseFloat: string -> Option<real>): (r: Outcome<seq<Cell>>)
    ensures r.Ok? ==> |r.value| == |OutputHeader| && r.value[7].Number?
    ensures r.Raise? ==> r.fault in {KeyError, ValueError, ZeroDivisionError}
  {
    var trade :- CreateTradeObject(data, parseFloat);
    SolvedRow(k, trade)
  }

  /** Every record makes it through the pipeline. */
  predicate AllSolve(k: Kernel, records: seq<Record>, parseFloat: string -> Option<real>) {
    forall i :: 0 <= i < |records| ==> SolveRecord(k, records[i], parseFloat).Ok?
  }

  lemma SolveRecordBuilt(k: Kernel, data: Record, parseFloat: string -> Option<real>, trade: Trade)
    requires CreateTradeObject(data, parseFloat) == Ok(trade)
    ensures SolveRecord(k, data, parseFloat) == SolvedRow(k, trade)
  {
  }

  /** The trades of a batch of records, then their solve: every record's
      row, or the exception the first failing stage raises. */
  method SolveRecords(k: Kernel, records: seq<Record>, parseFloat: string -> Option<real>) returns (r: Outcome<seq<seq<Cell>>>)
    ensures r.Ok? <==> AllSolve(k, records, parseFloat)
    ensures r.Raise? ==> r.fault in {KeyError, ValueError, ZeroDivisionError}
    ensures r.Ok? ==> |r.value| == |records|
    ensures r.Ok? ==> forall i :: 0 <= i < |records| ==> SolveRecord(k, records[i], parseFloat) == Ok(r.value[i])
  {
    var built := CreateTrades(records, parseFloat);
    if built.Raise? {
      var i :| 0 <= i < |records| && CreateTradeObject(records[i], parseFloat).Raise?;
      assert SolveRecord(k, records[i], parseFloat).Raise?;
      return Raise(built.fault);
    }
    var trades := built.value;
    var solved := PolymorphicSolve(k, trades);
    if solved.Raise? {
      var i :| 0 <= i < |trades| && CalcImpliedVolatility(k, trades[i]).Raise?;
      SolveRecordBuilt(k, records[i], parseFloat, trades[i]);
      return Raise(solved.fault);
    }
    var body := solved.value;
    forall i | 0 <= i < |records|
      ensures SolveRecord(k, records[i], parseFloat) == Ok(body[i])
    {
      SolveRecordBuilt(k, records[i], parseFloat, trades[i]);
    }
    return Ok(body);
  }

  /** calculate_implied_volatilities: records from the input's first
      `lines` rows, a trade per record, then the solve; the output is the
      fixed header over one solved row per record. */
  method CalculateImpliedVolatilities(k: Kernel, data: CsvFileData<Row>, lines: int, parseFloat: string -> Option<real>)
      returns (r: Outcome<CsvFileData<seq<Cell>>>)
    ensures r.Raise? ==> r.fault in {IndexError, KeyError, ValueError, ZeroDivisionError}
    ensures var read := FormatRows(data.body[..Limit(lines, |data.body|)], data.header);
            r.Ok? <==> read.Ok? && AllSolve(k, read.value, parseFloat)
    ensures r.Ok? ==> r.value.header == OutputHeader
    ensures r.Ok? ==> |r.value.body| == Limit(lines, |data.body|)
    ensures r.Ok? ==> var read := FormatRows(data.body[..Limit(lines, |data.body|)], data.header).value;
                      forall i :: 0 <= i < |r.value.body| ==> SolveRecord(k, read[i], parseFloat) == Ok(r.value.body[i])
  {
    var records :- DataAsDictionary(data, lines);
    var body :- SolveRecords(k, records, parseFloat);
    return Ok(CsvFileData(OutputHeader, body));
  }

  // ---------------------------------------------------------------------------
  // The NaN count of the output
  // ---------------------------------------------------------------------------

  /** isnan(line[7]) is defined: the row has an eighth cell and it is a
      number. */
  predicate Countable(line: seq<Cell>) {
    |line| > 7 && line[7].Number?
  }

  /** The exception isnan(line[7]) raises on a row where it is undefined. */
  function CountFault(line: seq<Cell>): (e: Fault)
    requires !Countable(line)
    ensures e == IndexError <==> |line| <= 7
    ensures e == TypeError <==> |line| > 7 && line[7].Text?
  {
    if |line| <= 7 then IndexError else TypeError
  }

  /** The indices among the first n rows whose Implied Volatility is NaN. */
  function NaNRows(body: seq<seq<Cell>>, n: nat): set<int>
    requires n <= |body|
    requires forall i :: 0 <= i < n ==> Countable(body[i])
  {
    set i | 0 <= i < n && Countable(body[i]) && body[i][7] == Number(NaN)
  }

  lemma {:induction false} NaNRowsStep(body: seq<seq<Cell>>, n: nat)
    requires n < |body|
    requires forall i :: 0 <= i <= n ==> Countable(body[i])
    ensures |NaNRows(body, n + 1)| == |NaNRows(body, n)| + (if body[n][7] == Number(NaN) then 1 else 0)
  {
    if body[n][7] == Number(NaN) {
      assert NaNRows(body, n + 1) == NaNRows(body, n) + {n};
    } else {
      assert NaNRows(body, n + 1) == NaNRows(body, n);
    }
  }

  /** The counting loop of __write_output_file: the number of rows whose
      Implied Volatility is NaN, or the exception of the first row where
      isnan fails. */
  method NanCount(body: seq<seq<Cell>>) returns (r: Outcome<nat>)
    ensures r.Ok? <==> forall i :: 0 <= i < |body| ==> Countable(body[i])
    ensures r.Ok? ==> r.value == |NaNRows(body, |body|)|
    ensures r.Raise? ==> exists i :: 0 <= i < |body| && !Countable(body[i])
                                     && (forall j :: 0 <= j < i ==> Countable(body[j]))
                                     && r.fault == CountFault(body[i])
  {
    var count := 0;
    var i := 0;
    while i < |body|
      invariant 0 <= i <= |body|
      invariant forall j :: 0 <= j < i ==> Countable(body[j])
      invariant count == |NaNRows(body, i)|
    {
      var line := body[i];
      if !Countable(line) {
        return Raise(CountFault(line));
      }
      NaNRowsStep(body, i);
      if line[7] == Number(NaN) {
        count := count + 1;
      }
      i := i + 1;
    }
    return Ok(count);
  }

  /** On solved output the NaN count is the number of trades left without
      an implied volatility. */
  lemma NaNRowsOfSolutions(trades: seq<Trade>, body: seq<seq<Cell>>)
    requires |body| == |trades|
    requires forall i :: 0 <= i < |trades| ==> body[i] == FormatSolution(trades[i])
    ensures forall i :: 0 <= i < |body| ==> Countable(body[i])
    ensures NaNRows(body, |body|) == set i | 0 <= i < |trades| && trades[i].impVol == NaN
  {
  }

  // ---------------------------------------------------------------------------
  // run_application
  // ---------------------------------------------------------------------------

  /** run_application with the input file's rows as a parameter: build the
      calculator, read the rows, solve, and count the NaN results written.
      The count never fails on solved output. */
  method RunApplication(k: Kernel, args: seq<string>, rows: seq<Row>,
                        parseInt: string -> Option<int>, parseFloat: string -> Option<real>)
      returns (r: Outcome<(CsvFileData<seq<Cell>>, nat)>)
    ensures r.Raise? ==> r.fault in {IndexError, KeyError, ValueError, ZeroDivisionError}
    ensures |args| < 3 ==> r == Raise(IndexError)
    ensures NewCalculator(args, parseInt).Ok? && rows == [] ==> r == Raise(IndexError)
    ensures r.Ok? ==> NewCalculator(args, parseInt).Ok? && rows != []
    ensures r.Ok? ==> r.value.0.header == OutputHeader
    ensures r.Ok? ==> |r.value.0.body| == Limit(NewCalculator(args, parseInt).value.linesToRun, |rows| - 1)
    ensures r.Ok? ==> forall i :: 0 <= i < |r.value.0.body| ==> Countable(r.value.0.body[i])
    ensures r.Ok? ==> r.value.1 == |NaNRows(r.value.0.body, |r.value.0.body|)|
  {
    var calculator :- NewCalculator(args, parseInt);
    var input :- FromRawRows(rows);
    var output :- CalculateImpliedVolatilities(k, input, calculator.linesToRun, parseFloat);
    forall i | 0 <= i < |output.body|
      ensures Countable(output.body[i])
    {
    }
    var counted := NanCount(output.body);
    return Ok((output, counted.value));
  }
}

=== FILE: trade_classes.dfy ===
/** The trade record and its implied-volatility dispatch
    (scripts/trade_classes.py). Each model × underlying × option type builds
    f(σ) = price(σ) − V0 and hands it to the ladder search on the fixed
    ladder [1e-7, 1, 2, 5, 10, 100, 1000]; an unknown option or underlying
    tag gives NaN without calling the solver. */
module TradeClasses {
  import opened Outcomes
  import opened Pricing
  import Brent
  import LadderSearch
  import DataManip

  /** The class a record was built as. */
  datatype ModelKind = BlackScholes | Bachelier

  /** A TradeData instance: the record's fields after conversion, and the
      implied volatility once solved (NaN before). The three type tags stay
      the strings the record held. */
  datatype Trade = Trade(
    id: string,
    terms: Terms,
    marketPrice: real,
    underlyingType: string,
    optionType: string,
    modelType: string,
    model: ModelKind,
    impVol: Num)

  // ---------------------------------------------------------------------------
  // Construction
  // ---------------------------------------------------------------------------

  /** data[key]: KeyError when absent. */
  function Field(data: DataManip.Record, key: string): (r: Outcome<string>)
    ensures r.Ok? <==> key in data
    ensures r.Ok? ==> r.value == data[key]
    ensures r.Raise? ==> r.fault == KeyError
  {
    if key in data then Ok(data[key]) else Raise(KeyError)
  }

  /** float(data[key]) with Python's float() as the parameter parseFloat:
      KeyError when the key is absent, ValueError when the text does not
      parse. */
  function FloatField(data: DataManip.Record, key: string, parseFloat: string -> Option<real>): (r: Outcome<real>)
    ensures r.Ok? <==> key in data && parseFloat(data[key]).Some?
    ensures r.Ok? ==> r.value == parseFloat(data[key]).value
    ensures r.Raise? ==> r.fault == (if key in data then ValueError else KeyError)
  {
    var text :- Field(data, key);
    match parseFloat(text)
    case None => Raise(ValueError)
    case Some(x) => Ok(x)
  }

  /** The record holds every field the constructor reads, and the numeric
      ones parse. */
  ghost predicate Complete(data: DataManip.Record, parseFloat: string -> Option<real>) {
    && "ID" in data && "Underlying Type" in data && "Option Type" in data && "Model Type" in data
    && (forall key :: key in NumericKeys ==> key in data && parseFloat(data[key]).Some?)
  }

  const NumericKeys: set<string> := {"Underlying", "Strike", "Risk-Free Rate", "Days To Expiry", "Market Price"}

  /** TradeData.__init__: read the fields in the source's order, take
      t = days / 365 and start with imp_vol = NaN. */
  function NewTrade(model: ModelKind, data: DataManip.Record, parseFloat: string -> Option<real>): (r: Outcome<Trade>)
    ensures r.Ok? <==> Complete(data, parseFloat)
    ensures r.Raise? ==> r.fault == KeyError || r.fault == ValueError
    ensures r.Ok? ==>
              && r.value.model == model
              && r.value.impVol == NaN
              && r.value.id == data["ID"]
              && r.value.terms.spot == parseFloat(data["Underlying"]).value
              && r.value.terms.strike == parseFloat(data["Strike"]).value
              && r.value.terms.rate == parseFloat(data["Risk-Free Rate"]).value
              && r.value.terms.years == parseFloat(data["Days To Expiry"]).value / 365.0
              && r.value.marketPrice == parseFloat(data["Market Price"]).value
              && r.value.underlyingType == data["Underlying Type"]
              && r.value.optionType == data["Option Type"]
              && r.value.modelType == data["Model Type"]
  {
    var id :- Field(data, "ID");
    var s :- FloatField(data, "Underlying", parseFloat);
    var k :- FloatField(data, "Strike", parseFloat);
    var rate :- FloatField(data, "Risk-Free Rate", parseFloat);
    var days :- FloatField(data, "Days To Expiry", parseFloat);
    var v0 :- FloatField(data, "Market Price", parseFloat);
    var underlying :- Field(data, "Underlying Type");
    var option :- Field(data, "Option Type");
    var modelType :- Field(data, "Model Type");
    Ok(Trade(id, Terms(s, k, rate, days / 365.0), v0, underlying, option, modelType, model, NaN))
  }

  // ---------------------------------------------------------------------------
  // Solving
  // ---------------------------------------------------------------------------

  /** The fixed volatility ladder; the source writes its first bound 10e-8. */
  const Ladder: seq<real> := [0.0000001, 1.0, 2.0, 5.0, 10.0, 100.0, 1000.0]

  /** bd_var_bounds' default step cap and width tolerance. */
  const MaxIter: int := 50
  const Tolerance: real := 0.00000001

  /** The ladder strictly increases from a positive first bound. */
  lemma LadderIncreasing()
    ensures |Ladder| == 7 && Ladder[0] == 0.0000001 && Ladder[6] == 1000.0
    ensures forall i, j :: 0 <= i < j < |Ladder| ==> Ladder[i] < Ladder[j]
    ensures LadderSearch.Sorted(Ladder)
    ensures forall i :: 0 <= i < |Ladder| ==> 0.0000001 <= Ladder[i] <= 1000.0
  {
  }

  /** Solve price(σ) = V0 on the ladder. The only exception the solve can
      raise is the iteration's division by zero, once a bracketing pair was
      found; a root comes from the ladder's range; and NaN means exactly
      that the price at the lowest bound is above V0 or no adjacent pair of
      the ladder brackets a sign change of price(σ) − V0. */
  function SolveFor(price: real -> real, v0: real): (r: Outcome<Num>)
    ensures r.Raise? ==> r.fault == ZeroDivisionError
    ensures r.Raise? ==>
              price(0.0000001) <= v0 && LadderSearch.FirstBracket(sigma => price(sigma) - v0, Ladder, 0).Some?
    ensures r.Ok? && r.value.Real? ==> 0.0000001 <= r.value.value <= 1000.0
    ensures price(0.0000001) > v0 ==> r == Ok(NaN)
    ensures r == Ok(NaN) <==>
              price(0.0000001) > v0 || LadderSearch.FirstBracket(sigma => price(sigma) - v0, Ladder, 0).None?
  {
    LadderIncreasing();
    var f: real -> real := sigma => price(sigma) - v0;
    assert f(Ladder[0]) > 0.0 <==> price(0.0000001) > v0;
    LadderSearch.BdVarBounds(f, Ladder, MaxIter, Tolerance)
  }

  /** The same solve through the search with the corrected swap: it never
      raises, and NaN means exactly that no adjacent pair of the ladder
      brackets a sign change of price(σ) − V0 from a non-positive start. */
  function SolveForCorrected(price: real -> real, v0: real): (r: Outcome<Num>)
    ensures r.Ok?
    ensures r.value.Real? ==> 0.0000001 <= r.value.value <= 1000.0
    ensures r.value == NaN <==>
              price(0.0000001) > v0 || LadderSearch.FirstBracket(sigma => price(sigma) - v0, Ladder, 0).None?
  {
    LadderIncreasing();
    LadderSearch.BdVarBoundsCorrected(sigma => price(sigma) - v0, Ladder, MaxIter, Tolerance)
  }

  /** The solver never consults the price outside [1e-7, 1000]: in
      particular never at σ <= 0, where the formulas divide by zero. */
  lemma SolveForLocal(price: real -> real, other: real -> real, v0: real)
    requires forall sigma :: 0.0000001 <= sigma <= 1000.0 ==> price(sigma) == other(sigma)
    ensures SolveFor(price, v0) == SolveFor(other, v0)
  {
    LadderIncreasing();
    var f: real -> real := sigma => price(sigma) - v0;
    var g: real -> real := sigma => other(sigma) - v0;
    assert Brent.AgreeOn(f, g, Ladder[0], Ladder[|Ladder| - 1]) by {
      forall x | Ladder[0] <= x <= Ladder[|Ladder| - 1]
        ensures f(x) == g(x)
      {
        assert price(x) == other(x);
      }
    }
    LadderSearch.BdVarBoundsLocal(f, g, Ladder, MaxIter, Tolerance);
  }

  datatype Underlying = Stock | Future
  datatype OptionKind = Call | Put

  /** The pricing formula each class uses for an underlying and option type.
      Bachelier futures use the stock factor, as the source does. */
  function Formula(k: Kernel, model: ModelKind, u: Underlying, o: OptionKind, c: Terms): real -> real {
    match (model, u, o)
    case (BlackScholes, Stock, Call) => sigma => BlackScholesStockCall(k, c, sigma)
    case (BlackScholes, Stock, Put) => sigma => BlackScholesStockPut(k, c, sigma)
    case (BlackScholes, Future, Call) => sigma => BlackScholesFutureCall(k, c, sigma)
    case (BlackScholes, Future, Put) => sigma => BlackScholesFuturePut(k, c, sigma)
    case (Bachelier, Stock, Call) => sigma => BachelierStockCall(k, c, sigma)
    case (Bachelier, Stock, Put) => sigma => BachelierStockPut(k, c, sigma)
    case (Bachelier, Future, Call) => sigma => BachelierFutureCall(k, c, sigma)
    case (Bachelier, Future, Put) => sigma => BachelierFuturePut(k, c, sigma)
  }

  /** What parity adds to a call to give the put: K·exp(−rt) − S on a
      stock, (K − S)·exp(−rt) on a future. */
  function ParityOffset(k: Kernel, u: Underlying, c: Terms): real {
    match u
    case Stock => c.strike * Discount(k, c) - c.spot
    case Future => (c.strike - c.spot) * Discount(k, c)
  }

  /** Every put formula the classes dispatch to is its call formula plus
      the underlying's parity offset, under both models, for any cdf with
      N(−x) = 1 − N(x). */
  lemma FormulaParity(k: Kernel, model: ModelKind, u: Underlying, c: Terms, sigma: real)
    requires SymmetricCdf(k)
    ensures Formula(k, model, u, Put, c)(sigma) == Formula(k, model, u, Call, c)(sigma) + ParityOffset(k, u, c)
  {
    match (model, u)
    case (BlackScholes, Stock) => BlackScholesStockParity(k, c, sigma);
    case (BlackScholes, Future) => BlackScholesFutureParity(k, c, sigma);
    case (Bachelier, _) =>
  }

  /** implied_volatility_stock and implied_volatility_future: dispatch on the
      option tag; any tag but 'Call' or 'Put' gives NaN. */
  function ImpliedVolatilityFor(k: Kernel, tr: Trade, u: Underlying): (r: Outcome<Num>)
    ensures tr.optionType != "Call" && tr.optionType != "Put" ==> r == Ok(NaN)
    ensures r.Raise? ==> r.fault == ZeroDivisionError
    ensures r.Ok? && r.value.Real? ==> 0.0000001 <= r.value.value <= 1000.0
  {
    if tr.optionType == "Call" then SolveFor(Formula(k, tr.model, u, Call, tr.terms), tr.marketPrice)
    else if tr.optionType == "Put" then SolveFor(Formula(k, tr.model, u, Put, tr.terms), tr.marketPrice)
    else Ok(NaN)
  }

  /** calc_implied_volatility: dispatch on the underlying tag and write
      imp_vol, and nothing else. An exception from the solver propagates. */
  function CalcImpliedVolatility(k: Kernel, tr: Trade): (r: Outcome<Trade>)
    ensures r.Ok? ==> r.value == tr.(impVol := r.value.impVol)
    ensures tr.underlyingType != "Stock" && tr.underlyingType != "Future" ==> r == Ok(tr.(impVol := NaN))
    ensures tr.optionType != "Call" && tr.optionType != "Put" ==> r == Ok(tr.(impVol := NaN))
    ensures r.Raise? ==> r.fault == ZeroDivisionError
    ensures r.Ok? && r.value.impVol.Real? ==> 0.0000001 <= r.value.impVol.value <= 1000.0
  {
    if tr.underlyingType == "Stock" then
      var v :- ImpliedVolatilityFor(k, tr, Stock);
      Ok(tr.(impVol := v))
    else if tr.underlyingType == "Future" then
      var v :- ImpliedVolatilityFor(k, tr, Future);
      Ok(tr.(impVol := v))
    else Ok(tr.(impVol := NaN))
  }

  /** The tags the source recognises, as a table. */
  function UnderlyingOf(tag: string): Option<Underlying> {
    if tag == "Stock" then Some(Stock) else if tag == "Future" then Some(Future) else None
  }

  function OptionKindOf(tag: string): Option<OptionKind> {
    if tag == "Call" then Some(Call) else if tag == "Put" then Some(Put) else None
  }

  /** The nested if/elif dispatch computes the table lookup: a recognised
      (underlying, option) pair is solved with its formula, anything else
      is NaN. */
  lemma DispatchIsTableLookup(k: Kernel, tr: Trade)
    ensures CalcImpliedVolatility(k, tr) ==
            match (UnderlyingOf(tr.underlyingType), OptionKindOf(tr.optionType))
            case (Some(u), Some(o)) =>
              (match SolveFor(Formula(k, tr.model, u, o, tr.terms), tr.marketPrice)
               case Ok(v) => Ok(tr.(impVol := v))
               case Raise(e) => Raise(e))
            case _ => Ok(tr.(impVol := NaN))
  {
  }

  /** For a valid trade, every volatility the solver tries has nonzero
      divisors in every formula, so the model's quotients are the source's. */
  lemma ProbedVolatilitiesAreWellDefined(k: Kernel, c: Terms, sigma: real)
    requires PositiveKernel(k) && ValidTerms(c)
    requires 0.0000001 <= sigma <= 1000.0
    ensures DivisorsNonZero(k, c, sigma)
  {
    DivisorsNonZeroForPositiveVolatility(k, c, sigma);
  }

  // ---------------------------------------------------------------------------
  // Output
  // ---------------------------------------------------------------------------

  /** A cell of an output row: text or a float. */
  datatype Cell = Text(text: string) | Number(num: Num)

  /** format_solution: the nine output fields in fixed order. */
  function FormatSolution(tr: Trade): (row: seq<Cell>)
    ensures |row| == 9
    ensures row[7] == Number(tr.impVol)
  {
    [ Text(tr.id), Number(Real(tr.terms.spot)), Number(Real(tr.terms.strike)),
      Number(Real(tr.terms.rate)), Number(Real(tr.terms.years)), Text(tr.optionType),
      Text(tr.modelType), Number(tr.impVol), Number(Real(tr.marketPrice)) ]
  }
}
